=== FILE: README.md ===
# smart_lock in Dafny

This project models the two halves of the smart_lock system and proves properties of the model.

**Firmware.** The M5Stack firmware is a BLE peripheral. It:
- fetches the list of BLE service UUIDs for its room from the backend and caches it in flash;
- advertises the first UUID;
- paints its RGB LED strip red on a `"lock"` write and blue on an `"unlock"` write;
- sends a `ping N` notification every two seconds while a central is connected;
- can upload a file over HTTP.

**Backend.** The Go backend:
- registers and logs in users, issuing bearer tokens;
- guards routes with a bearer-token middleware;
- lets users book rooms, which gives each booking a fresh BLE UUID;
- answers the firmware's UUID query;
- presents all of this as JSON.

The model follows the code. No command framing, base64 coding, key store or signature check exists in the firmware. A BLE write is matched against the two exact strings `"lock"` and `"unlock"`, and `"unlock"` is obeyed with no authentication. `BleConnection.Classify` and `BleConnection.WriteEffect` state exactly this.

One module per source component. All modules are pure functions over immutable datatypes; the loop-shaped operations are methods with loop invariants.

| module (file) | models |
|---|---|
| `Common` (common.dfy) | `Option`, `Result`, `uint8`, `uint32`, non-empty strings |
| `Text` (text.dfy) | Arduino `String::trim`, Go `strings.Split`, `strconv.ParseUint(s, 10, 32)`, `%lu` rendering, UTF-8 length |
| `RgbController` (rgb_controller.dfy) | the LED buffer of `RGBController` |
| `BleConnection` (ble_connection.dfy) | `BLEConnectionManager` and its server/characteristic callbacks |
| `UuidStore` (uuid_store.dfy) | `BLEUuidManager`: the flash file format, load, save and fetch |
| `SmartKeyApp` (smart_key_app.dfy) | `SmartKeyApp::begin` (UUID source selection) and `SmartKeyApp::run` |
| `FileSender` (file_sender.dfy) | `FileSender` configuration and the `sendFile` decision |
| `Entities` (entities.dfy) | `User`, `Room`, `UserRoom` and `User.Validate` |
| `Repositories` (repositories.dfy) | in-memory user, room and booking repositories following the repository interfaces |
| `AuthMiddleware` (auth_middleware.dfy) | `AuthMiddleware` |
| `AuthUsecase` (auth_usecase.dfy) | `Register`, `Login`, `GetUserByID` |
| `RoomUsecase` (room_usecase.dfy) | the room use cases and the no-duplicate-booking invariant |
| `Presenters` (presenters.dfy) | room and auth presenters |
| `Handlers` (handlers.dfy) | the room and auth HTTP handlers |

Things outside the program are parameters:
- **Clock:** `millis()` is a `uint32` sample. On the backend, `time.Now()` is an `Instant` argument.
- **HTTP exchanges:** given as their outcome, meaning the status code and what the JSON parser produced.
- **Flash file:** its content, plus whether it opens for writing and for reading.
- **bcrypt and JWT:** oracles, given as function-valued fields of `AuthUsecase.Crypto` and the middleware's validator.
- **`uuid.New`:** a non-empty string parameter.
- **The key server:** a function from room name to optional public key.
- **Database failures:** one `online` flag on the repository record. While it is false, every repository call fails and changes nothing.

## Model

| member | source | states |
|---|---|---|
| Text.SkipSpaces | src/ble/ble_uuid_manager.cpp:118 | the front scan of `trim` stops at the first non-space character at or after the start, everything it skipped being whitespace |
| Text.SkipSpacesBack | src/ble/ble_uuid_manager.cpp:118 | the back scan of `trim` stops just after the last non-space character before the end, everything it skipped being whitespace |
| Text.Trim | src/ble/ble_uuid_manager.cpp:118 | the result is the input with its leading and trailing `isspace` characters removed: the slice of the input starting where the front scan stops, whitespace on both sides, non-space at both ends, empty iff the line is all whitespace |
| Text.TrimIdentity | src/ble/ble_uuid_manager.cpp:118 | trimming leaves a line unchanged exactly when it has no surrounding whitespace |
| Text.TrimDropsSpaceSuffix | src/ble/ble_uuid_manager.cpp:117-118 | the carriage return `println` leaves before the newline is removed by `trim`, giving back the trimmed UUID |
| Text.IndexOf | src/ble/ble_uuid_manager.cpp:117 | where `readStringUntil('\n')` stops: a position holding the character, with no earlier occurrence of it |
| Text.Split | app/interface/middleware/auth_middleware.go:39 | splitting on a separator gives at least one piece, no piece contains the separator, and joining the pieces restores the input |
| Text.SplitJoin | app/interface/middleware/auth_middleware.go:39 | the other half of the round trip: separator-free pieces are recovered from their join |
| Text.ParseUint32Loop | app/interface/handler/room_handler.go:99-104 | a value is parsed iff the text is a non-empty run of ASCII digits whose value fits in 32 bits, and the result is that value; the loop stops at the first range overflow |
| Text.ParseDecimal | app/interface/handler/room_handler.go:129-134 | the decimal rendering of every 32-bit number parses back to that number |
| Text.Decimal | src/smart_key_app.cpp:133 | `%lu` renders `n` as digits whose value is `n`, with no leading zero |
| Text.DecimalInjective | src/smart_key_app.cpp:133 | distinct counters give distinct renderings |
| Text.Utf8Length | app/domain/entity/user.go:28 | Go's `len` counts UTF-8 bytes: at least one and at most four per character, and exactly one per character of an all-ASCII string |
| Text.Utf8LengthAppend | app/domain/entity/user.go:28 | the byte length is additive: a one-character string takes that character's UTF-8 width, and the length of a concatenation is the sum of the lengths |
| Text.Utf8Widths | app/domain/entity/user.go:28 | `A` takes one byte, `é` two, `あ` three and U+1F511 four, as UTF-8 encodes them |
| RgbController.UnpackPack | src/rgb/rgb_controller.cpp:26-31 | `setColor` of a colour packed as `r<<16 \| g<<8 \| b` stores that colour |
| RgbController.PackUnpack | src/rgb/rgb_controller.cpp:28-30 | unpacking by shifts and masks keeps exactly the low 24 bits of the colour word |
| RgbController.SetColorRgb | src/rgb/rgb_controller.cpp:35-39 | an in-range write sets that LED only; the length never changes |
| RgbController.SetColor | src/rgb/rgb_controller.cpp:26-33 | an in-range write stores the unpacked colour at that index only |
| RgbController.SetColorOutOfRange | src/rgb/rgb_controller.cpp:27 | an index at or past `numLeds` leaves the buffer unchanged |
| RgbController.SetColorPacked | src/rgb/rgb_controller.cpp:26-39 | `setColor` with a packed colour equals `setColorRGB` with its components |
| RgbController.Clear | src/rgb/rgb_controller.cpp:46-50 | after `clear` every LED is black and the length is kept |
| RgbController.PaintAll | src/rgb/rgb_controller.cpp:60-62 | the `uint8_t` counter loop over `setColorRGB` paints every LED |
| RgbController.LockEffect | src/rgb/rgb_controller.cpp:56-66 | after `lockEffect` every LED is (255, 0, 0) |
| RgbController.UnlockEffect | src/rgb/rgb_controller.cpp:68-78 | after `unlockEffect` every LED is (0, 0, 255) |
| RgbController.Init | src/rgb/rgb_controller.cpp:5-24 | `init` leaves `numLeds` LEDs, all black, whatever the fresh buffer held |
| RgbController.ClearTwice | src/rgb/rgb_controller.cpp:46-50 | `clear` is idempotent: clearing a cleared strip changes nothing, and every LED is black |
| RgbController.LockThenUnlock | src/rgb/rgb_controller.cpp:56-78 | the unlock effect wipes out a preceding lock effect: the strip is all (0, 0, 255), whatever it held |
| RgbController.UnlockThenLock | src/rgb/rgb_controller.cpp:56-78 | the lock effect wipes out a preceding unlock effect: the strip is all (255, 0, 0), whatever it held |
| BleConnection.Init | src/ble/ble_connection_manager.cpp:91-122 | `init` clears the connected and restart flags, records the service UUID, creates the characteristic holding `"hello"` and leaves the RGB controller link alone |
| BleConnection.SetRgbController | src/ble/ble_connection_manager.cpp:190-191 | only the controller link changes |
| BleConnection.OnConnect | src/ble/ble_connection_manager.cpp:14-17 | after a connect the manager reports connected; nothing else changes |
| BleConnection.OnDisconnect | src/ble/ble_connection_manager.cpp:26-30 | after a disconnect the manager is not connected and wants advertising restarted |
| BleConnection.Classify | src/ble/ble_connection_manager.cpp:45-86 | a value is a lock command iff it is exactly `"lock"`, an unlock command iff exactly `"unlock"`; there is no key check |
| BleConnection.NearMissesIgnored | src/ble/ble_connection_manager.cpp:45-72 | the empty value, other letter case, surrounding spaces and a trailing newline trigger nothing |
| BleConnection.WriteEffect | src/ble/ble_connection_manager.cpp:56-83 | a write triggers the lock effect iff it is `"lock"` and a controller is set, the unlock effect likewise, never both |
| BleConnection.ApplyEffect | src/ble/ble_connection_manager.cpp:64-83 | after the lock effect every LED is red, after the unlock effect every LED is blue; no effect leaves the strip as it was; the length never changes |
| BleConnection.SendNotification | src/ble/ble_connection_manager.cpp:174-177 | the characteristic takes the message iff connected and the characteristic exists; otherwise nothing changes |
| BleConnection.Step | src/ble/ble_connection_manager.cpp:14-88 | a connect or disconnect changes only the connected and restart flags; a write keeps the flags, the service UUID and the controller link, stores the written value in the characteristic when it exists, and can only repaint the strip |
| BleConnection.ReplaySnoc | src/ble/ble_connection_manager.cpp:14-88 | replaying events one more at a time is one more step |
| BleConnection.ConnectedFollowsLastLinkEvent | src/ble/ble_connection_manager.cpp:14-30 | after any event sequence the manager is connected iff the last link event was a connect; with no link event both flags are as they started |
| BleConnection.RestartFlagAfterDisconnect | src/ble/ble_connection_manager.cpp:14-30 | both directions: after any event sequence the restart flag is up iff it was up before or some disconnect happened, since nothing ever lowers it |
| BleConnection.CharacteristicHoldsLastWrite | src/ble/ble_connection_manager.cpp:40-43 | after any event sequence the characteristic holds the value of the last write, or its old value when nothing was written |
| BleConnection.StripFollowsLastCommand | src/ble/ble_connection_manager.cpp:56-83 | with a controller set, the strip shows the colour of the last lock or unlock write |
| BleConnection.NoControllerNoEffect | src/ble/ble_connection_manager.cpp:65-81 | without a controller no write changes the strip |
| UuidStore.ReadLines | src/ble/ble_uuid_manager.cpp:116-117 | the lines read contain no newline, and there are none exactly when the file is empty |
| UuidStore.ReadLinesJoin | src/ble/ble_uuid_manager.cpp:116-117 | nothing is lost: the lines joined by newlines give back the file, apart from a final newline, which ends the last line |
| UuidStore.KeepTrimmed | src/ble/ble_uuid_manager.cpp:118-120 | every kept UUID is non-empty and has no surrounding whitespace |
| UuidStore.KeepTrimmedContent | src/ble/ble_uuid_manager.cpp:116-121 | both directions: a string is kept iff it is non-empty and the trimmed form of some line |
| UuidStore.ReadLinesSerialize | src/ble/ble_uuid_manager.cpp:91-93 | reading back a saved file gives each UUID followed by the carriage return `println` wrote |
| UuidStore.KeepTrimmedWithCr | src/ble/ble_uuid_manager.cpp:116-124 | trimming those lines gives back the UUIDs |
| UuidStore.SaveLoadRoundTrip | src/ble/ble_uuid_manager.cpp:91-124 | save then load returns the same list, in order, when every UUID is non-empty, newline-free and without surrounding whitespace |
| UuidStore.SaveUuidsToFile | src/ble/ble_uuid_manager.cpp:84-99 | saving succeeds iff the file opens for writing, and then replaces its content with the serialised list |
| UuidStore.LoadUuids | src/ble/ble_uuid_manager.cpp:101-129 | a missing or unopenable file reports failure and keeps the list; otherwise the list becomes the file's trimmed non-empty lines and success means at least one |
| UuidStore.FetchAndSaveUuids | src/ble/ble_uuid_manager.cpp:7-82 | a non-200 code or unparsable body changes nothing; a parsed document clears the list; a missing or empty array fails with an empty list; otherwise the list is the array, and success also requires the save to succeed |
| UuidStore.FetchThenLoad | src/ble/ble_uuid_manager.cpp:61-73 | after a successful fetch of storable UUIDs, loading the cache file recovers exactly the fetched list |
| UuidStore.GetUuids | src/ble/ble_uuid_manager.cpp:131-133 | the accessor returns the held list element for element, in order |
| UuidStore.GetUuidsAfterFill | src/ble/ble_uuid_manager.cpp:7-133 | after a fetch that parsed an array the accessor returns that array; after a load that read the file it returns the file's trimmed non-empty lines |
| SmartKeyApp.Elapsed | src/smart_key_app.cpp:128 | `millis() - lastNotifyTime` wraps around modulo 2^32 |
| SmartKeyApp.Run | src/smart_key_app.cpp:104-136 | advertising restarts iff the flag fell since the last call; the remembered flag becomes the current one; a ping is sent iff connected and more than 2000 ms elapsed, carrying the counter, which then rises by one; otherwise counter and timestamp are kept |
| SmartKeyApp.PingsCarryCounters | src/smart_key_app.cpp:131-134 | each notification is `ping ` followed by its counter value |
| SmartKeyApp.PingCountersCountUp | src/smart_key_app.cpp:132-133 | successive pings carry successive counter values, modulo 2^32 |
| SmartKeyApp.WrapShift | src/smart_key_app.cpp:133 | counting on from an incremented 32-bit counter |
| SmartKeyApp.PingsFromStart | src/smart_key_app.cpp:127-134 | from power-on the loop sends `ping 0`, `ping 1`, … in order |
| SmartKeyApp.DisconnectedIsQuiet | src/smart_key_app.cpp:128 | while disconnected no ping is sent and neither the counter nor the timestamp changes |
| SmartKeyApp.RestartAt | src/smart_key_app.cpp:109-124 | iteration `i` restarts advertising iff it sees the flag down after the flag it remembered was up |
| SmartKeyApp.RestartsAtFallingEdges | src/smart_key_app.cpp:109-124 | over a whole run, restarts happen exactly on falling edges, and the remembered flag ends as the last sample |
| SmartKeyApp.Begin | src/smart_key_app.cpp:31-94 | the strip starts black; the stored file is consulted only when the fetch failed; BLE starts with the first UUID iff the list is non-empty, otherwise it is skipped |
| SmartKeyApp.UnsavedFetchStillStarts | src/smart_key_app.cpp:61-79 | a fetch whose save failed and no cache still starts BLE with the fetched list |
| SmartKeyApp.UnsavedFetchYieldsToOldCache | src/smart_key_app.cpp:61-71 | a fetch whose save failed is overridden by an older readable cache file |
| SmartKeyApp.NothingAvailableSkipsBle | src/smart_key_app.cpp:61-94 | with no backend answer and no cache, BLE is skipped |
| SmartKeyApp.Poll | src/smart_key_app.cpp:104-136 | a loop iteration against the live manager leaves the strip and the connected flag alone |
| SmartKeyApp.PingsAreDelivered | src/smart_key_app.cpp:128-134 | once BLE is set up, every ping the loop decides on reaches the characteristic |
| FileSender.ContentTypeAndExtensionIdentifyType | src/file/file_sender.cpp:129-149 | each file type has its own content type and its own extension |
| FileSender.FileTypeHeader | src/file/file_sender.cpp:80 | `X-File-Type` is `image` iff the type is an image, `public-key` for every other type |
| FileSender.UnknownLabelledPublicKey | src/file/file_sender.cpp:78-80 | an unknown file goes out as an octet stream yet is labelled a public key |
| FileSender.SetTargetServer | src/file/file_sender.cpp:4-8 | only the URL changes |
| FileSender.SetAuth | src/file/file_sender.cpp:10-14 | only the credentials change |
| FileSender.BuildRequest | src/file/file_sender.cpp:50-91 | basic auth iff both user name and password are non-empty; headers are the content type, `attachment; filename="…"` and the file-type label, in that order; the body is the data |
| FileSender.SendFile | src/file/file_sender.cpp:16-127 | an empty URL fails before any request; a failed `begin` fails; otherwise the built request is posted; success iff the code is 200 or 201 |
| FileSender.OnlyOkAndCreatedSucceed | src/file/file_sender.cpp:92-122 | every other code, client errors included, reports failure |
| Entities.Validate | app/domain/entity/user.go:21-31 | an empty email is reported first whatever the password; then an empty password; then a password under 6 UTF-8 bytes gives the too-short error; validation passes iff the email is non-empty and the password has at least 6 UTF-8 bytes |
| Entities.ValidateIgnoresName | app/domain/entity/user.go:21-31 | the name is never checked |
| Entities.ValidateCountsBytes | app/domain/entity/user.go:28 | the limit counts bytes: two 3-byte characters pass, five ASCII characters do not |
| Repositories.First | app/infrastructure/persistence/user_repository_impl.go:29 | a match is found iff one exists, and it satisfies the query |
| Repositories.FirstIsEarliest | app/infrastructure/persistence/user_repository_impl.go:29 | `First` returns the match at the lowest position in the table, which is primary-key order because IDs ascend with position (`AutoIncrement`) |
| Repositories.FirstNoLaterThan | app/infrastructure/persistence/user_repository_impl.go:29 | whatever match one points at, `First` returns one at the same or an earlier position |
| Repositories.FindByEmailLeastId | app/infrastructure/persistence/user_repository_impl.go:27-33 | under auto-increment IDs, the user found by email has the least ID among the users with that email |
| Repositories.FindUserByIdUnique | app/infrastructure/persistence/user_repository_impl.go:36-42 | under auto-increment IDs, looking up a stored user's ID finds exactly that user |
| Repositories.Filter | app/infrastructure/persistence/user_room_repository_impl.go:24 | a `Where` query keeps only matching records, and a record is in the result iff it is in the input and matches |
| Repositories.FilterCount | app/infrastructure/persistence/user_room_repository_impl.go:24 | a matching record keeps its multiplicity and a non-matching one is gone |
| Repositories.FilterAppend | app/infrastructure/persistence/user_room_repository_impl.go:24 | filtering keeps the table order: filtering a concatenation concatenates the filtered parts |
| Repositories.FilterKeepsAscending | app/infrastructure/persistence/user_room_repository_impl.go:38-40 | removing rows keeps the IDs ascending |
| Repositories.CreateUser | app/infrastructure/persistence/user_repository_impl.go:22-24 | a stored user gets the next ID and the creation time and is appended; nothing is stored while the database is down; auto-increment (positive, ascending IDs below the counter) is kept |
| Repositories.FindByEmail | app/infrastructure/persistence/user_repository_impl.go:27-33 | found iff some user has the email; the result has it |
| Repositories.FindUserById | app/infrastructure/persistence/user_repository_impl.go:36-42 | found iff some user has the ID |
| Repositories.FindRoomById | app/infrastructure/persistence/room_repository_impl.go:18-24 | found iff some room has the ID |
| Repositories.FindAllRooms | app/infrastructure/persistence/room_repository_impl.go:26-32 | all rooms, or an error while the database is down |
| Repositories.CreateBooking | app/infrastructure/persistence/user_room_repository_impl.go:18-20 | a booking gets the next ID and the creation time and is appended |
| Repositories.FindByUserId | app/infrastructure/persistence/user_room_repository_impl.go:22-28 | the user's bookings in table order, each with its room preloaded |
| Repositories.FindByRoomId | app/infrastructure/persistence/user_room_repository_impl.go:30-36 | the room's bookings in table order, each with its user preloaded |
| Repositories.DeleteBooking | app/infrastructure/persistence/user_room_repository_impl.go:38-40 | exactly the bookings with that ID are removed; a missing ID is not an error |
| Repositories.ExistsByUserAndRoom | app/infrastructure/persistence/user_room_repository_impl.go:42-46 | true iff some booking has that user and room |
| AuthMiddleware.BearerToken | app/interface/middleware/auth_middleware.go:39-45 | an accepted header is `Bearer ` followed by a space-free token |
| AuthMiddleware.BearerTokenAccepted | app/interface/middleware/auth_middleware.go:39-45 | every space-free token after `Bearer ` is accepted verbatim |
| AuthMiddleware.BearerTokenIff | app/interface/middleware/auth_middleware.go:39-45 | both directions: the header carries token `t` iff it is `Bearer ` + `t` and `t` has no space |
| AuthMiddleware.LowerCaseSchemeRejected | app/interface/middleware/auth_middleware.go:40 | `bearer x` is rejected |
| AuthMiddleware.NoSpaceRejected | app/interface/middleware/auth_middleware.go:40 | a header without a space, the empty one included, is rejected |
| AuthMiddleware.ExtraSpaceRejected | app/interface/middleware/auth_middleware.go:40 | `Bearer a b` and `Bearer  x` are rejected |
| AuthMiddleware.Authenticate | app/interface/middleware/auth_middleware.go:31-55 | an empty, malformed or invalid header gives 401 `Unauthorized`; otherwise the next handler runs once with the claims' user ID and email |
| AuthMiddleware.AuthenticateBearer | app/interface/middleware/auth_middleware.go:45-54 | a well-formed header reaches the handler iff its token, taken verbatim, validates |
| AuthUsecase.Register | app/usecase/auth_usecase.go:19-47 | success iff validation, hashing, storing and token creation all succeed; validation comes before hashing and storing; hashing and storing failures leave the store unchanged; on success exactly one user holding the hash output is appended under the next ID and nothing else changes; a token failure leaves the user stored |
| AuthUsecase.PlaintextNeverStored | app/usecase/auth_usecase.go:31-39 | the stored password is the hash output, never the plaintext |
| AuthUsecase.Login | app/usecase/auth_usecase.go:50-70 | an unknown email or a failed check gives an error and no token; success returns the first user with that email and a token issued for it at the login's instant |
| AuthUsecase.GetUserById | app/usecase/auth_usecase.go:73-75 | while the store is up, found iff a user has the ID, and the user found has it; while it is down, the store error |
| AuthUsecase.RegisterThenLogin | app/usecase/auth_usecase.go:19-70 | after registering a new email, a login at any later instant with the same password succeeds iff a token can be issued then, returns the registered user and the token issued at that instant, and returns the registration's token only at the registration's own instant |
| AuthUsecase.EarlierAccountShadows | app/usecase/auth_usecase.go:19-70 | emails are not unique: an existing account with the email does not change whether a registration succeeds, and login afterwards reaches the earlier account, never the new one |
| RoomUsecase.BookRoom | app/usecase/room_usecase.go:36-62 | a missing room (or any lookup failure) is "room not found"; an already-booked pair is refused; otherwise exactly one booking with the user, room and non-empty UUID is added; failures change nothing |
| RoomUsecase.GetUserRooms | app/usecase/room_usecase.go:64-66 | entry `i` is the user's `i`-th booking with its room preloaded |
| RoomUsecase.GetAllRooms | app/usecase/room_usecase.go:68-70 | all rooms |
| RoomUsecase.CancelBooking | app/usecase/room_usecase.go:72-75 | deletes by booking ID alone; succeeds iff the store is up |
| RoomUsecase.CancelIgnoresOwner | app/usecase/room_usecase.go:72-75 | ownership is not checked: another user's booking is removed |
| RoomUsecase.NonEmptyUuids | app/usecase/room_usecase.go:83-90 | never more UUIDs than bookings |
| RoomUsecase.NonEmptyUuidsContent | app/usecase/room_usecase.go:84-88 | the list holds exactly the non-empty UUIDs of the bookings |
| RoomUsecase.PreloadKeepsUuid | app/infrastructure/persistence/user_room_repository_impl.go:30-36 | preloading the user leaves the UUID and the room alone |
| RoomUsecase.GetBleUuidByRoomId | app/usecase/room_usecase.go:77-91 | the non-empty UUIDs of the room's bookings, in the order the repository returns them |
| RoomUsecase.RoomUuidsAreItsBookings | app/usecase/room_usecase.go:77-91 | a UUID is listed iff it is non-empty and belongs to a booking of the room |
| RoomUsecase.KeyOf | app/usecase/room_usecase.go:112-138 | a booking yields a key entry iff its room exists and the key server answers for the room name |
| RoomUsecase.CollectKeys | app/usecase/room_usecase.go:112-140 | every entry comes from one of the bookings, and every booking whose room exists and whose key is served contributes its entry |
| RoomUsecase.GetRoomKeysForUser | app/usecase/room_usecase.go:93-147 | a store failure and no bookings are errors; "failed to fetch keys" iff none of the user's bookings yields a key; otherwise the entries are those the user's bookings yield, in booking order, one per yielding booking |
| RoomUsecase.KeyServerDownFails | app/usecase/room_usecase.go:142-144 | if the key server never answers, a user with bookings gets the key-server error |
| RoomUsecase.KeysOfBookings | app/usecase/room_usecase.go:112-140 | an entry is collected iff some booking yields it, and nothing is collected iff no booking yields an entry |
| RoomUsecase.CollectKeysAppend | app/usecase/room_usecase.go:104-140 | the loop keeps booking order: a single booking contributes its own entry or nothing, and consecutive runs of bookings contribute their entries one after the other |
| RoomUsecase.CollectKeysCount | app/usecase/room_usecase.go:112-140 | there are exactly as many entries as bookings that yield a key |
| RoomUsecase.NoKeysCollected | app/usecase/room_usecase.go:112-140 | no answers, no entries |
| RoomUsecase.BookRoomKeepsNoDuplicates | app/usecase/room_usecase.go:44-61 | a booking never duplicates a (user, room) pair |
| RoomUsecase.NoDuplicatesTail | app/usecase/room_usecase.go:44-61 | the invariant holds for a suffix |
| RoomUsecase.NoDuplicatesCons | app/usecase/room_usecase.go:44-61 | a booking with a fresh pair extends the invariant |
| RoomUsecase.FilterKeepsNoDuplicates | app/infrastructure/persistence/user_room_repository_impl.go:38-40 | deleting bookings keeps the invariant |
| RoomUsecase.CancelBookingKeepsNoDuplicates | app/usecase/room_usecase.go:72-75 | a cancellation keeps the invariant |
| RoomUsecase.NoDuplicatesUnderAnyCommands | app/usecase/room_usecase.go:36-75 | under any sequence of bookings and cancellations, no two bookings share a (user, room) pair |
| Presenters.PresentRoom | app/interface/presenter/room_presenter.go:22-28 | exactly the keys `id`, `room_name`, `created_at` |
| Presenters.PresentRoomRoundTrip | app/interface/presenter/room_presenter.go:22-28 | the room is read back unchanged from its presentation |
| Presenters.PresentRooms | app/interface/presenter/room_presenter.go:30-39 | keys `rooms` and `count`; `count` is the number of rooms |
| Presenters.PresentRoomsRoundTrip | app/interface/presenter/room_presenter.go:31-34 | entries are the presented rooms in order |
| Presenters.PresentUserRoom | app/interface/presenter/room_presenter.go:41-55 | the booking's five fields, plus `room` iff the nested room's ID is not zero |
| Presenters.PresentUserRoomRoundTrip | app/interface/presenter/room_presenter.go:41-55 | everything but the user is kept, and the room only when loaded |
| Presenters.PresentUserRooms | app/interface/presenter/room_presenter.go:57-66 | keys `bookings` and `count`; `count` is the length |
| Presenters.PresentUserRoomsRoundTrip | app/interface/presenter/room_presenter.go:58-61 | entries map pointwise, in order |
| Presenters.PresentError | app/interface/presenter/room_presenter.go:68-72 | a single `error` key |
| Presenters.PresentErrorRoundTrip | app/interface/presenter/room_presenter.go:68-72 | the message is carried verbatim |
| Presenters.ToUserResponse | app/interface/presenter/auth_presenter.go:52-59 | ID, email, name and creation time are copied unchanged |
| Presenters.PasswordNotExposed | app/interface/presenter/auth_presenter.go:31-36 | two users differing only in password are presented identically |
| Presenters.ToAuthResponse | app/interface/presenter/auth_presenter.go:44-49 | the token verbatim and the user as `ToUserResponse` presents it |
| Presenters.ToErrorResponse | app/interface/presenter/auth_presenter.go:62-66 | the message verbatim |
| Handlers.GetAllRoomsHandler | app/interface/handler/room_handler.go:25-36 | 200 with the presented rooms iff the store is up, otherwise 500 "Failed to fetch rooms" |
| Handlers.GetMyBookingsHandler | app/interface/handler/room_handler.go:39-52 | 200 with the user's presented bookings iff the store is up, otherwise 500 |
| Handlers.BookRoomHandler | app/interface/handler/room_handler.go:55-85 | a malformed body or room ID 0 (absent included) gives 400; a use-case error gives 400 with its text; success gives 201 and is the only case that changes the store |
| Handlers.BookTwiceRejected | app/interface/handler/room_handler.go:73-78 | a second identical booking is a 400 with the duplicate text and changes nothing |
| Handlers.CancelBookingHandler | app/interface/handler/room_handler.go:88-118 | missing `id` and a non-decimal or out-of-range `id` give 400; a use-case error gives 500; success gives 200 |
| Handlers.CancelByDecimalId | app/interface/handler/room_handler.go:99-117 | the decimal form of a 32-bit ID cancels exactly the bookings with that ID |
| Handlers.SignedOrSpacedIdRejected | app/interface/handler/room_handler.go:99-104 | `+1` and ` 1` are invalid IDs |
| Handlers.WideIdRejected | app/interface/handler/room_handler.go:99-104 | an ID beyond 2^32−1 is invalid |
| Handlers.GetBleUuidHandler | app/interface/handler/room_handler.go:121-148 | a missing `room_id` gives 400; a non-decimal or out-of-range one gives 400; a use-case error gives 500; otherwise 200 with the room's non-empty UUIDs |
| Handlers.RegisterHandler | app/interface/handler/auth_handler.go:24-45 | a malformed body gives 400; a use-case error gives 500 with its message; success gives 201 with the token and user |
| Handlers.InvalidRegistrationIsServerError | app/interface/handler/auth_handler.go:36-40 | a validation failure reaches the client as a 500 carrying the validation message |
| Handlers.LoginHandler | app/interface/handler/auth_handler.go:48-67 | a malformed body gives 400; any use-case error gives 401 `Unauthorized`; success gives 200 with the user and the token issued at the request's instant |
| Handlers.LoginFailuresIndistinguishable | app/interface/handler/auth_handler.go:58-62 | an unknown email and a wrong password give the same response |
| Handlers.MeHandler | app/interface/handler/auth_handler.go:70-82 | 200 iff the lookup succeeds, and then the body is the found user as presented, carrying the asked ID; otherwise 404 "User not found" |
| Handlers.MeShowsStoredUser | app/interface/handler/auth_handler.go:70-82 | under auto-increment IDs, `Me` for a stored user's ID answers 200 with exactly that user presented |
| Handlers.RegisterThenMe | app/interface/handler/auth_handler.go:24-82 | a registered user reads their own record back through `Me` |

## Left out

- Display, serial logging and `delay` calls are pure output and timing.
- BLE stack set-up and advertising are left out: `BLEDevice` initialisation, `startAdvertising`, `stopAdvertising` and `restartAdvertising`. `SmartKeyApp.Run` reports a restart decision instead of calling `startAdvertising`. The `shouldRestartAdvertising` flag is recorded but nothing reads it.
- The callbacks check the global manager pointer. That pointer is set only by `init`, and `init` also registers the callbacks, so the unset case cannot arise.
- FastLED `show` and `setBrightness` drive hardware and do not change the buffer.
- Callbacks and the main loop run concurrently on the device. Here each event is atomic.
- RoomUsecase.NoDuplicatesUnderAnyCommands: holds only for requests handled one at a time. `net/http` serves requests concurrently, and `BookRoom` checks `ExistsByUserAndRoom` and then calls `Create` with no transaction and no unique index on (user, room) (app/usecase/room_usecase.go:44-61), so two simultaneous identical bookings can both be stored.
- SmartKeyApp.Run: `run` reads `millis()` twice, once for the test and once for the new timestamp. The model uses one sample for both.
- SmartKeyApp.Begin: LittleFS mounting, the check for `/shibata.jpg`, WiFi bring-up and starting the HTTP server are I/O with no effect on the modelled state.
- The WiFi connector, the firmware's HTTP server and the stand-alone demo sketch in `src/main.cpp` are hardware and network plumbing.
- HTTPClient and LittleFS are outcomes and contents, not I/O. So is ArduinoJson decoding: the body is given as what the parser produced, and the conversion of a non-string array element to text is not modelled.
- JWT signing and validation, bcrypt, and `uuid.New` are oracles. `AuthUsecase.Crypto` holds the hashing and token oracles. The token oracle takes the instant of the call because the token's issue and expiry claims are read from the clock; `Register` uses one instant both for the user's creation time and for its token; the middleware takes the token validator; `BookRoom` takes the UUID as a non-empty string.
- GORM and the database are replaced by in-memory repositories. Soft deletion is treated as removal. Auto-increment IDs come from counters.
- Repositories.DbMessage: the driver's error text for a failure other than "record not found" becomes one fixed string.
- Repositories.FindByUserId, Repositories.FindByRoomId and Repositories.FindAllRooms: GORM `Find` is called without `Order`, so the SQL leaves the row order unspecified. The model fixes it to table (insertion) order. Which booking's UUID comes first, and so which one a lock advertises, is not fixed by the backend.
- Repositories: room IDs are seeded outside the program; `AutoIncrement` takes them as positive and ascending in table order, as auto-increment gives them.
- Repositories: the repository is up or down for a whole use-case call. A failure that begins between two repository calls of the same use case is not modelled. So the `StoreFailed` results of `BookRoom` after a successful room lookup cannot occur.
- RoomUsecase.GetRoomKeysForUser: the key-server URL, the HTTP exchange and the JSON decoding are one oracle from room name to key. The default key-server address is not modelled.
- The `GetRoomKey` handler calls a use-case method that the `RoomUsecase` interface does not declare, so it does not type-check.
- JSON encoding of responses and RFC 3339 time formatting are left out. An `Instant` carries its rendering, and `http.Error`'s trailing newline is not part of `PlainText`.
- The firmware has no command framer, base64 codec, key store, provisioning client or signature verifier, so none is modelled.

=== FILE: auth_middleware.dfy ===
/** The bearer-token middleware (app/interface/middleware/auth_middleware.go).
    Token validation (JWT signature and expiry) is an oracle from the token
    text to the claims it carries, or `None` when it is rejected. */
module AuthMiddleware {
  import opened Common
  import opened Text

  /** The claims a valid token carries. */
  datatype Claims = Claims(userId: nat, email: string)

  /** What the middleware does with a request: answer it with an error, or
      pass it on to the wrapped handler with the caller's identity in the
      request context. */
  datatype Dispatch =
    | Reject(status: int, message: string)
    | CallNext(userId: nat, email: string)

  const StatusUnauthorized := 401
  const Unauthorized := Reject(StatusUnauthorized, "Unauthorized")

  const Scheme := "Bearer"

  /** The token of an `Authorization` header: the header split on single
      spaces must have exactly two pieces, the first exactly `Bearer`. */
  function BearerToken(header: string): (r: Option<string>)
    ensures r.Some? ==> header == Scheme + " " + r.value && ' ' !in r.value
  {
    var parts := Split(header, ' ');
    if |parts| != 2 || parts[0] != Scheme then None
    else
      assert Join(parts, ' ') == parts[0] + [' '] + Join(parts[1..], ' ');
      Some(parts[1])
  }

  /** Conversely every space-free token is accepted after `Bearer `. */
  lemma BearerTokenAccepted(token: string)
    requires ' ' !in token
    ensures BearerToken(Scheme + " " + token) == Some(token)
  {
    var parts := [Scheme, token];
    assert Join(parts[1..], ' ') == token;
    assert Join(parts, ' ') == Scheme + " " + token;
    SplitJoin(parts, ' ');
  }

  /** Both directions: the header carries token `t` exactly when it is
      `Bearer ` followed by `t` and `t` has no space. */
  lemma BearerTokenIff(header: string, t: string)
    ensures BearerToken(header) == Some(t) <==> header == Scheme + " " + t && ' ' !in t
  {
    if header == Scheme + " " + t && ' ' !in t {
      BearerTokenAccepted(t);
    }
  }

  /** The scheme is case sensitive. */
  lemma LowerCaseSchemeRejected()
    ensures BearerToken("bearer x") == None
  {
    var parts := Split("bearer x", ' ');
    assert parts[0] == "bearer x"[..|parts[0]|] by {
      if |parts| > 1 {
        assert Join(parts, ' ') == parts[0] + [' '] + Join(parts[1..], ' ');
      }
    }
  }

  /** A header of a single piece, the empty one included, has no token. */
  lemma NoSpaceRejected(header: string)
    requires ' ' !in header
    ensures BearerToken(header) == None
  {
  }

  /** A space inside the token, or a doubled space after the scheme, makes
      a third piece. */
  lemma ExtraSpaceRejected(token: string)
    requires ' ' in token
    ensures BearerToken(Scheme + " " + token) == None
  {
  }

  /** `AuthMiddleware`: an empty header, a malformed header or a token the
      validator rejects are all answered 401 `Unauthorized`; otherwise the
      wrapped handler runs once with the claims' user ID and email. */
  function Authenticate(header: string, validate: string -> Option<Claims>): (r: Dispatch)
    ensures header == "" ==> r == Unauthorized
    ensures r.Reject? ==> r == Unauthorized
    ensures r.CallNext? <==> BearerToken(header).Some? && validate(BearerToken(header).value).Some?
    ensures r.CallNext? ==>
      var claims := validate(BearerToken(header).value).value;
      r.userId == claims.userId && r.email == claims.email
  {
    if header == "" then Unauthorized
    else match BearerToken(header)
      case None => Unauthorized
      case Some(token) =>
        match validate(token)
        case None => Unauthorized
        case Some(claims) => CallNext(claims.userId, claims.email)
  }

  /** End to end: a well-formed header reaches the handler exactly when its
      token, taken verbatim, validates. */
  lemma AuthenticateBearer(token: string, validate: string -> Option<Claims>)
    requires ' ' !in token
    ensures Authenticate(Scheme + " " + token, validate).CallNext? <==> validate(token).Some?
    ensures validate(token).Some? ==>
      Authenticate(Scheme + " " + token, validate) == CallNext(validate(token).value.userId, validate(token).value.email)
  {
    BearerTokenAccepted(token);
  }
}

=== FILE: auth_usecase.dfy ===
/** The authentication use cases (app/usecase/auth_usecase.go) over the
    in-memory user repository. Password hashing, password checking and
    token generation are library calls (bcrypt, JWT) and are given as
    oracles. */
module AuthUsecase {
  import opened Common
  import opened Entities
  import opened Repositories

  /** The cryptographic oracles: `hash` is `HashPassword` (bcrypt, which can
      fail), `matches(hash, plain)` is `CheckPassword` succeeding, `token`
      is `GenerateToken(id, email)` called at the given instant, which
      fills the token's issue and expiry claims. Failures carry their error
      text. */
  datatype Crypto = Crypto(
    hash: string -> Result<string, string>,
    matches: (string, string) -> bool,
    token: (nat, string, Instant) -> Result<string, string>)

  /** The error a use case returns, by the step that produced it. */
  datatype AuthError =
    | Invalid(reason: ValidationError)
    | HashFailed(hashMessage: string)
    | StoreFailed(storeCause: DbError)
    | TokenFailed(tokenMessage: string)
    | LookupFailed(lookupCause: DbError)
    | WrongPassword

  /** `err.Error()` for each kind of error. The bcrypt mismatch text is
      the library's. */
  function AuthMessage(e: AuthError): string
  {
    match e
    case Invalid(reason) => ValidationMessage(reason)
    case HashFailed(m) => m
    case StoreFailed(cause) => DbMessage(cause)
    case TokenFailed(m) => m
    case LookupFailed(cause) => DbMessage(cause)
    case WrongPassword => "crypto/bcrypt: hashedPassword is not the hash of the given password"
  }

  /** A token with the user it was issued for. */
  datatype Session = Session(token: string, user: User)

  /** The repository after the call and the call's result. */
  datatype Registered = Registered(db: Db, result: Result<Session, AuthError>)

  /** `Register`: validate, hash the password, store the user, then issue a
      token for the stored user's ID and email. Each step that fails stops
      the sequence; a token failure comes after the user is stored and so
      leaves it stored. */
  function Register(db: Db, crypto: Crypto, email: string, password: string, name: string, now: Instant): (r: Registered)
    // validation comes before hashing and storing
    ensures Validate(User(0, email, password, name, ZeroTime)).Some? ==>
      r == Registered(db, Err(Invalid(Validate(User(0, email, password, name, ZeroTime)).value)))
    // a hashing or storing failure leaves the repository unchanged
    ensures r.result.Err? && !r.result.error.TokenFailed? ==> r.db == db
    // on success exactly one user was added, holding the hash and a fresh ID
    ensures r.result.Ok? ==>
      var u := r.result.value.user;
      && Validate(User(0, email, password, name, ZeroTime)).None?
      && crypto.hash(password).Ok?
      && u == User(db.nextUserId, email, crypto.hash(password).value, name, now)
      && r.db == db.(users := db.users + [u], nextUserId := db.nextUserId + 1)
      && crypto.token(u.id, u.email, now) == Ok(r.result.value.token)
    // a token failure leaves the new user stored and nothing else changed
    ensures r.result.Err? && r.result.error.TokenFailed? ==>
      crypto.hash(password).Ok? &&
      r.db == db.(users := db.users + [User(db.nextUserId, email, crypto.hash(password).value, name, now)],
                  nextUserId := db.nextUserId + 1)
    ensures r.result == Err(StoreFailed(Unavailable)) <==>
      Validate(User(0, email, password, name, ZeroTime)).None? && crypto.hash(password).Ok? && !db.online
    // success needs exactly these four steps to go through; whether the
    // email is already taken plays no part
    ensures r.result.Ok? <==>
      && Validate(User(0, email, password, name, ZeroTime)).None?
      && crypto.hash(password).Ok?
      && db.online
      && crypto.token(db.nextUserId, email, now).Ok?
  {
    var candidate := User(0, email, password, name, ZeroTime);
    match Validate(candidate)
    case Some(reason) => Registered(db, Err(Invalid(reason)))
    case None =>
      match crypto.hash(password)
      case Err(m) => Registered(db, Err(HashFailed(m)))
      case Ok(hashed) =>
        match CreateUser(db, candidate.(password := hashed), now)
        case Err(cause) => Registered(db, Err(StoreFailed(cause)))
        case Ok(created) =>
          var u := created.record;
          match crypto.token(u.id, u.email, now)
          case Err(m) => Registered(created.db, Err(TokenFailed(m)))
          case Ok(token) => Registered(created.db, Ok(Session(token, u)))
  }

  /** The stored password is the hash output: whenever the hash differs
      from its input (as a bcrypt hash always does) the plaintext is never
      stored. */
  lemma PlaintextNeverStored(db: Db, crypto: Crypto, email: string, password: string, name: string, now: Instant)
    requires crypto.hash(password).Ok? ==> crypto.hash(password).value != password
    ensures forall u :: u in Register(db, crypto, email, password, name, now).db.users && u !in db.users ==>
      u.password != password
  {
  }

  /** `Login` at instant `now`: the first user with that email, a password
      check against the stored hash, then a token for that user issued at
      `now`. */
  function Login(db: Db, crypto: Crypto, email: string, password: string, now: Instant): (r: Result<Session, AuthError>)
    ensures FindByEmail(db, email).Err? ==> r == Err(LookupFailed(FindByEmail(db, email).error))
    ensures r.Ok? <==>
      && FindByEmail(db, email).Ok?
      && crypto.matches(FindByEmail(db, email).value.password, password)
      && crypto.token(FindByEmail(db, email).value.id, email, now).Ok?
    ensures r.Ok? ==>
      && r.value.user == FindByEmail(db, email).value
      && r.value.user.email == email
      && Ok(r.value.token) == crypto.token(r.value.user.id, r.value.user.email, now)
  {
    match FindByEmail(db, email)
    case Err(cause) => Err(LookupFailed(cause))
    case Ok(u) =>
      if !crypto.matches(u.password, password) then Err(WrongPassword)
      else match crypto.token(u.id, u.email, now)
        case Err(m) => Err(TokenFailed(m))
        case Ok(token) => Ok(Session(token, u))
  }

  /** `GetUserByID`. */
  function GetUserById(db: Db, id: nat): (r: Result<User, DbError>)
    ensures !db.online ==> r == Err(Unavailable)
    ensures db.online ==> (r.Ok? <==> exists u :: u in db.users && u.id == id)
    ensures r.Ok? ==> r.value in db.users && r.value.id == id
  {
    FindUserById(db, id)
  }

  /** The use cases agree: after a successful registration with a new
      email, a later login with the same password reaches the user just
      stored, provided the hash oracle checks its own output. It succeeds
      iff a token can be issued at the login's instant, and that token is
      the one it returns; only a login at the registration's own instant
      gets the registration's token back. */
  lemma RegisterThenLogin(db: Db, crypto: Crypto, email: string, password: string, name: string, now: Instant, later: Instant)
    requires forall u :: u in db.users ==> u.email != email
    requires Register(db, crypto, email, password, name, now).result.Ok?
    requires crypto.matches(crypto.hash(password).value, password)
    ensures var reg := Register(db, crypto, email, password, name, now);
      var login := Login(reg.db, crypto, email, password, later);
      && (login.Ok? <==> crypto.token(reg.result.value.user.id, email, later).Ok?)
      && (login.Ok? ==>
            && login.value.user == reg.result.value.user
            && Ok(login.value.token) == crypto.token(reg.result.value.user.id, email, later))
      && (later == now ==> login == reg.result)
  {
    var reg := Register(db, crypto, email, password, name, now);
    var u := reg.result.value.user;
    assert u in reg.db.users;
    FirstIsEarliest(reg.db.users, (x: User) => x.email == email, |db.users|);
  }

  /** Emails are not unique: an email that is already registered does not
      stop a second registration, and login then always reaches the earlier
      account. */
  lemma EarlierAccountShadows(db: Db, crypto: Crypto, email: string, password: string, name: string, now: Instant, later: Instant, k: nat)
    requires AutoIncrement(db)
    requires k < |db.users| && db.users[k].email == email
    requires forall j :: 0 <= j < k ==> db.users[j].email != email
    ensures var reg := Register(db, crypto, email, password, name, now);
      && (reg.result.Ok? <==>
            && Validate(User(0, email, password, name, ZeroTime)).None?
            && crypto.hash(password).Ok? && db.online
            && crypto.token(db.nextUserId, email, now).Ok?)
      && (reg.result.Ok? && Login(reg.db, crypto, email, password, later).Ok? ==>
            Login(reg.db, crypto, email, password, later).value.user == db.users[k] != reg.result.value.user)
  {
    var reg := Register(db, crypto, email, password, name, now);
    if reg.result.Ok? {
      assert reg.db.users[k] == db.users[k];
      FirstIsEarliest(reg.db.users, (x: User) => x.email == email, k);
    }
  }
}

=== FILE: ble_connection.dfy ===
/** The BLE peripheral's connection manager (src/ble/ble_connection_manager.cpp)
    as a state record. The server and characteristic callbacks reach the
    manager and the RGB controller through two module-level pointers; here the
    manager record carries both the manager's own flags and whether the RGB
    controller pointer has been set, and a `Peripheral` pairs it with the LED
    buffer the write callback drives. Each callback is one atomic transition.

    The only command handling is exact string comparison: a write of `"lock"`
    turns the strip red and a write of `"unlock"` turns it blue. Nothing is
    authenticated: any connected central that writes `"unlock"` gets the
    unlock effect. */
module BleConnection {
  import opened Common
  import Rgb = RgbController

  const InitialCharacteristicValue: string := "hello"

  /** `BLEConnectionManager` plus the RGB controller pointer its callbacks use. */
  datatype Manager = Manager(
    connected: bool,                 // deviceConnected
    shouldRestartAdvertising: bool,  // set on disconnect, never read
    serviceUuid: string,             // currentServiceUuid
    characteristic: Option<string>,  // None while pCharacteristic is null; else its value
    rgbAttached: bool)               // g_rgbController != nullptr

  /** The manager as constructed, before `init`. */
  const Fresh := Manager(false, false, "", None, false)

  /** `init`'s state part: both flags cleared, the service UUID recorded, the
      characteristic created holding `"hello"`. The RGB pointer is a separate
      global that `init` does not touch. */
  function Init(m: Manager, serviceUuid: string): (m': Manager)
    ensures !m'.connected && !m'.shouldRestartAdvertising
    ensures m'.serviceUuid == serviceUuid
    ensures m'.characteristic == Some(InitialCharacteristicValue)
    ensures m'.rgbAttached == m.rgbAttached
  {
    Manager(false, false, serviceUuid, Some(InitialCharacteristicValue), m.rgbAttached)
  }

  /** `setRGBController`: the write callback may now drive the strip. */
  function SetRgbController(m: Manager): (m': Manager)
    ensures m'.rgbAttached
    ensures m' == m.(rgbAttached := true)
  {
    m.(rgbAttached := true)
  }

  /** `isConnected`. */
  function IsConnected(m: Manager): bool
  {
    m.connected
  }

  /** `MyServerCallbacks::onConnect`. */
  function OnConnect(m: Manager): (m': Manager)
    ensures IsConnected(m')
    ensures m' == m.(connected := true)
  {
    m.(connected := true)
  }

  /** `MyServerCallbacks::onDisconnect`. */
  function OnDisconnect(m: Manager): (m': Manager)
    ensures !IsConnected(m') && m'.shouldRestartAdvertising
    ensures m' == m.(connected := false, shouldRestartAdvertising := true)
  {
    m.(connected := false, shouldRestartAdvertising := true)
  }

  // ---------------------------------------------------------------------
  // Write dispatch
  // ---------------------------------------------------------------------

  /** What an inbound characteristic value asks for. */
  datatype Command = LockCommand | UnlockCommand | NoCommand

  /** The write callback's dispatch: non-empty, then exact equality with
      `"lock"` or `"unlock"`. */
  function Classify(value: string): (c: Command)
    ensures c == LockCommand <==> value == "lock"
    ensures c == UnlockCommand <==> value == "unlock"
  {
    if |value| > 0 then
      if value == "lock" then LockCommand
      else if value == "unlock" then UnlockCommand
      else NoCommand
    else NoCommand
  }

  /** Near misses are ignored: case, surrounding whitespace, a trailing
      newline and the empty write all fall through. */
  lemma NearMissesIgnored()
    ensures Classify("") == NoCommand
    ensures Classify("Lock") == NoCommand && Classify("UNLOCK") == NoCommand
    ensures Classify("lock\n") == NoCommand && Classify("unlock\n") == NoCommand
    ensures Classify(" unlock") == NoCommand && Classify("unlock ") == NoCommand
  {
  }

  /** The LED effect a write triggers: the command's effect when an RGB
      controller has been set, nothing otherwise. */
  datatype Effect = NoEffect | LockEffect | UnlockEffect

  function WriteEffect(m: Manager, value: string): (e: Effect)
    ensures e == LockEffect <==> value == "lock" && m.rgbAttached
    ensures e == UnlockEffect <==> value == "unlock" && m.rgbAttached
  {
    if !m.rgbAttached then NoEffect
    else match Classify(value)
      case LockCommand => LockEffect
      case UnlockCommand => UnlockEffect
      case NoCommand => NoEffect
  }

  /** The LED buffer after an effect (`lockEffect` / `unlockEffect`). */
  function ApplyEffect(s: Rgb.Strip, e: Effect): (t: Rgb.Strip)
    ensures |t| == |s|
    ensures e == LockEffect ==> Rgb.AllShow(t, Rgb.Red)
    ensures e == UnlockEffect ==> Rgb.AllShow(t, Rgb.Blue)
    ensures e == NoEffect ==> t == s
  {
    match e
    case NoEffect => s
    case LockEffect => Rgb.Filled(|s|, Rgb.Red)
    case UnlockEffect => Rgb.Filled(|s|, Rgb.Blue)
  }

  // ---------------------------------------------------------------------
  // Notifications
  // ---------------------------------------------------------------------

  datatype Notified = Notified(manager: Manager, sent: bool)

  /** `sendNotification`: the characteristic takes the message and is
      notified only while connected and after the characteristic exists;
      otherwise nothing happens. */
  function SendNotification(m: Manager, message: string): (r: Notified)
    ensures r.sent <==> m.connected && m.characteristic.Some?
    ensures r.sent ==> r.manager == m.(characteristic := Some(message))
    ensures !r.sent ==> r.manager == m
  {
    if m.connected && m.characteristic.Some? then
      Notified(m.(characteristic := Some(message)), true)
    else
      Notified(m, false)
  }

  // ---------------------------------------------------------------------
  // The peripheral: manager plus LED buffer, driven by callback events
  // ---------------------------------------------------------------------

  datatype Peripheral = Peripheral(manager: Manager, strip: Rgb.Strip)

  datatype Event = Connect | Disconnect | Write(value: string)

  /** The characteristic after a central writes `value`: the BLE stack
      stores the bytes (where a central can read them back) before the
      write callback runs. */
  function Written(m: Manager, value: string): Manager
  {
    m.(characteristic := if m.characteristic.Some? then Some(value) else None)
  }

  /** One callback, run to completion. A write changes only the
      characteristic value among the manager's fields, and may repaint the
      strip; the link events leave the strip alone. */
  function Step(p: Peripheral, e: Event): (q: Peripheral)
    ensures |q.strip| == |p.strip|
    ensures e.Write? ==>
      && q.manager.connected == p.manager.connected
      && q.manager.shouldRestartAdvertising == p.manager.shouldRestartAdvertising
      && q.manager.serviceUuid == p.manager.serviceUuid
      && q.manager.rgbAttached == p.manager.rgbAttached
      && (p.manager.characteristic.Some? <==> q.manager.characteristic == Some(e.value))
      && (p.manager.characteristic.None? ==> q.manager.characteristic.None?)
    ensures !e.Write? ==> q.strip == p.strip
    ensures e == Connect ==> q.manager == p.manager.(connected := true)
    ensures e == Disconnect ==> q.manager == p.manager.(connected := false, shouldRestartAdvertising := true)
  {
    match e
    case Connect => p.(manager := OnConnect(p.manager))
    case Disconnect => p.(manager := OnDisconnect(p.manager))
    case Write(v) => Peripheral(Written(p.manager, v), ApplyEffect(p.strip, WriteEffect(p.manager, v)))
  }

  function Replay(p: Peripheral, events: seq<Event>): Peripheral
    decreases |events|
  {
    if |events| == 0 then p else Replay(Step(p, events[0]), events[1..])
  }

  /** The most recent connect or disconnect event, if any. */
  function LastLinkEvent(events: seq<Event>): Option<Event>
    decreases |events|
  {
    if |events| == 0 then None
    else if !events[|events| - 1].Write? then Some(events[|events| - 1])
    else LastLinkEvent(events[..|events| - 1])
  }

  /** The colour the most recent effective lock or unlock write asks for. */
  function LastColour(events: seq<Event>): Option<Rgb.Crgb>
    decreases |events|
  {
    if |events| == 0 then None
    else
      var e := events[|events| - 1];
      if e == Write("lock") then Some(Rgb.Red)
      else if e == Write("unlock") then Some(Rgb.Blue)
      else LastColour(events[..|events| - 1])
  }

  /** The value of the most recent write, if any. */
  function LastWrite(events: seq<Event>): Option<string>
    decreases |events|
  {
    if |events| == 0 then None
    else if events[|events| - 1].Write? then Some(events[|events| - 1].value)
    else LastWrite(events[..|events| - 1])
  }

  lemma {:induction false} ReplaySnoc(p: Peripheral, events: seq<Event>, e: Event)
    ensures Replay(p, events + [e]) == Step(Replay(p, events), e)
    decreases |events|
  {
    if |events| == 0 {
      assert events + [e] == [e];
    } else {
      assert (events + [e])[1..] == events[1..] + [e];
      ReplaySnoc(Step(p, events[0]), events[1..], e);
    }
  }

  /** After any sequence of callbacks the manager reports connected exactly
      when the last link event was a connect (or, with none, as before);
      writes never move the flags. */
  lemma {:induction false} ConnectedFollowsLastLinkEvent(p: Peripheral, events: seq<Event>)
    ensures var q := Replay(p, events);
      match LastLinkEvent(events)
      case None =>
        && q.manager.connected == p.manager.connected
        && q.manager.shouldRestartAdvertising == p.manager.shouldRestartAdvertising
      case Some(e) =>
        && q.manager.connected == (e == Connect)
        && (e == Disconnect ==> q.manager.shouldRestartAdvertising)
    decreases |events|
  {
    if |events| > 0 {
      var init := events[..|events| - 1];
      var last := events[|events| - 1];
      assert events == init + [last];
      ReplaySnoc(p, init, last);
      ConnectedFollowsLastLinkEvent(p, init);
    }
  }

  /** The restart flag is raised by a disconnect and nothing lowers it:
      after any sequence of callbacks it is up exactly when it was up
      before or some disconnect happened. */
  lemma {:induction false} RestartFlagAfterDisconnect(p: Peripheral, events: seq<Event>)
    ensures Replay(p, events).manager.shouldRestartAdvertising <==>
      p.manager.shouldRestartAdvertising || Disconnect in events
    decreases |events|
  {
    if |events| > 0 {
      RestartFlagAfterDisconnect(Step(p, events[0]), events[1..]);
      assert Disconnect in events <==> events[0] == Disconnect || Disconnect in events[1..] by {
        assert events == [events[0]] + events[1..];
      }
    }
  }

  /** Once the characteristic exists, a central reading it sees the last
      value written (or notified); before any write it keeps its value. */
  lemma {:induction false} CharacteristicHoldsLastWrite(p: Peripheral, events: seq<Event>)
    requires p.manager.characteristic.Some?
    ensures var c := Replay(p, events).manager.characteristic;
      match LastWrite(events)
      case None => c == p.manager.characteristic
      case Some(v) => c == Some(v)
    decreases |events|
  {
    if |events| > 0 {
      var init := events[..|events| - 1];
      var last := events[|events| - 1];
      assert events == init + [last];
      ReplaySnoc(p, init, last);
      CharacteristicHoldsLastWrite(p, init);
    }
  }

  /** With the RGB controller set, the strip shows the colour of the last
      `"lock"`/`"unlock"` write, whatever came in between; with no such
      write it is as it was. The last effect wins, and `"unlock"` needs no
      key, token or prior state. */
  lemma {:induction false} StripFollowsLastCommand(p: Peripheral, events: seq<Event>)
    requires p.manager.rgbAttached
    ensures var q := Replay(p, events);
      && Replay(p, events).manager.rgbAttached
      && match LastColour(events)
         case None => q.strip == p.strip
         case Some(c) => q.strip == Rgb.Filled(|p.strip|, c)
    decreases |events|
  {
    if |events| > 0 {
      var init := events[..|events| - 1];
      var last := events[|events| - 1];
      assert events == init + [last];
      ReplaySnoc(p, init, last);
      StripFollowsLastCommand(p, init);
    }
  }

  /** Without an RGB controller no write changes the strip. */
  lemma {:induction false} NoControllerNoEffect(p: Peripheral, events: seq<Event>)
    requires !p.manager.rgbAttached
    ensures Replay(p, events).strip == p.strip
    decreases |events|
  {
    if |events| > 0 {
      NoControllerNoEffect(Step(p, events[0]), events[1..]);
    }
  }
}

=== FILE: common.dfy ===
/** Shared vocabulary: optional values, fallible results and the fixed-width
    integer types the firmware and the backend use. */
module Common {

  /** A value that may be absent: a null pointer, a missing JSON field, a
      query parameter that failed to parse. */
  datatype Option<+T> = None | Some(value: T)

  /** The outcome of an operation that either produces a value or fails with
      an error, as Go's `(value, error)` pairs do. */
  datatype Result<+T, +E> = Ok(value: T) | Err(error: E)

  /** C/C++ `uint8_t`. */
  type uint8 = x: int | 0 <= x < 0x100

  /** C/C++ `uint32_t` and 32-bit `unsigned long`. */
  type uint32 = x: int | 0 <= x < 0x1_0000_0000

  const MaxUint32: int := 0xFFFF_FFFF

  /** A string known to be non-empty, such as the text form of a freshly
      generated UUID. */
  type NonEmptyString = s: string | |s| > 0 witness "0"
}

=== FILE: entities.dfy ===
/** The backend's domain entities (app/domain/entity): users, rooms and
    bookings (`UserRoom`), and the user validation rule. Go's `uint` IDs
    are natural numbers; 0 is the zero value an unsaved or unloaded record
    carries. Timestamps are kept abstract: an `Instant` carries only the
    RFC 3339 text the presenters print for it. */
module Entities {
  import opened Common
  import opened Text

  /** A `time.Time`, represented by its RFC 3339 rendering. */
  datatype Instant = Instant(rfc3339: string)

  /** The zero `time.Time`. */
  const ZeroTime := Instant("0001-01-01T00:00:00Z")

  /** entity.User. `password` holds the bcrypt hash once registered. */
  datatype User = User(id: nat, email: string, password: string, name: string, createdAt: Instant)

  const ZeroUser := User(0, "", "", "", ZeroTime)

  /** entity.Room. */
  datatype Room = Room(id: nat, roomName: string, createdAt: Instant)

  const ZeroRoom := Room(0, "", ZeroTime)

  /** entity.UserRoom: one booking, with the associations the repository
      may preload (zero values when not loaded). */
  datatype UserRoom = UserRoom(
    id: nat, userId: nat, roomId: nat, bleUuid: string, createdAt: Instant,
    user: User, room: Room)

  /** The three ways `User.Validate` can fail. */
  datatype ValidationError = EmailMissing | PasswordMissing | PasswordTooShort

  /** The error text `Validate` returns. */
  function ValidationMessage(e: ValidationError): string
  {
    match e
    case EmailMissing => "メールアドレスが存在しません"
    case PasswordMissing => "パスワードが存在しません"
    case PasswordTooShort => "パスワードは6文字以上である必要があります"
  }

  const MinPasswordBytes: nat := 6

  /** `User.Validate`: email first, then password presence, then its length
      in UTF-8 bytes (Go's `len`). The name is never checked. */
  function Validate(u: User): (r: Option<ValidationError>)
    ensures u.email == "" ==> r == Some(EmailMissing)
    ensures u.email != "" && u.password == "" ==> r == Some(PasswordMissing)
    ensures u.email != "" && u.password != "" && Utf8Length(u.password) < MinPasswordBytes ==>
      r == Some(PasswordTooShort)
    ensures r.None? <==> u.email != "" && Utf8Length(u.password) >= MinPasswordBytes
  {
    if u.email == "" then Some(EmailMissing)
    else if u.password == "" then Some(PasswordMissing)
    else if Utf8Length(u.password) < MinPasswordBytes then Some(PasswordTooShort)
    else None
  }

  /** Validation looks at the email and the password only. */
  lemma ValidateIgnoresName(u: User, name: string)
    ensures Validate(u.(name := name)) == Validate(u)
  {
  }

  /** The limit counts bytes, not characters: a two-character password of
      three-byte characters passes, and six ASCII characters are the
      shortest ASCII password that does. */
  lemma ValidateCountsBytes()
    ensures Validate(User(0, "a@b", "錠前", "", ZeroTime)).None?
    ensures Validate(User(0, "a@b", "12345", "", ZeroTime)) == Some(PasswordTooShort)
    ensures Validate(User(0, "a@b", "123456", "", ZeroTime)).None?
  {
    assert Utf8Length("錠前") == 6;
    assert Utf8Length("12345") == 5;
    assert Utf8Length("123456") == 6;
  }
}

=== FILE: file_sender.dfy ===
/** The firmware's HTTP file upload (src/file/file_sender.cpp) as a decision
    function. The HTTP client is not run: whether `http.begin` succeeds and
    the code `http.POST` returns (positive for an HTTP status, zero or
    negative for a client error) are inputs, and the result records the
    request that would have been sent and whether `sendFile` reports
    success. */
module FileSender {
  import opened Common

  datatype FileType = Image | PublicKey | Unknown

  /** `getContentType`. */
  function ContentType(t: FileType): string
  {
    match t
    case Image => "image/jpeg"
    case PublicKey => "application/x-pem-file"
    case Unknown => "application/octet-stream"
  }

  /** `getFileExtension`. */
  function FileExtension(t: FileType): string
  {
    match t
    case Image => ".jpg"
    case PublicKey => ".pub"
    case Unknown => ".bin"
  }

  /** The file type a content type or an extension names, if any. */
  function TypeOfContentType(contentType: string): Option<FileType>
  {
    if contentType == "image/jpeg" then Some(Image)
    else if contentType == "application/x-pem-file" then Some(PublicKey)
    else if contentType == "application/octet-stream" then Some(Unknown)
    else None
  }

  function TypeOfExtension(extension: string): Option<FileType>
  {
    if extension == ".jpg" then Some(Image)
    else if extension == ".pub" then Some(PublicKey)
    else if extension == ".bin" then Some(Unknown)
    else None
  }

  /** Each type has its own content type and its own extension: both maps
      are inverted by the lookups above. */
  lemma ContentTypeAndExtensionIdentifyType(t: FileType)
    ensures TypeOfContentType(ContentType(t)) == Some(t)
    ensures TypeOfExtension(FileExtension(t)) == Some(t)
  {
  }

  /** The `X-File-Type` header value: `"image"` for images and
      `"public-key"` for every other type, UNKNOWN included. */
  function FileTypeHeader(t: FileType): (v: string)
    ensures v == "image" <==> t == Image
    ensures v == "public-key" <==> t != Image
  {
    if t == Image then "image" else "public-key"
  }

  /** An unknown file goes out as an octet stream yet is labelled a public
      key: the two headers disagree. */
  lemma UnknownLabelledPublicKey()
    ensures ContentType(Unknown) != ContentType(PublicKey)
    ensures FileTypeHeader(Unknown) == FileTypeHeader(PublicKey)
  {
  }

  /** The sender's configuration (`setTargetServer`, `setAuth`). */
  datatype Sender = Sender(targetUrl: string, username: string, password: string)

  const Unconfigured := Sender("", "", "")

  function SetTargetServer(s: Sender, url: string): (s': Sender)
    ensures s'.targetUrl == url && s'.username == s.username && s'.password == s.password
  {
    s.(targetUrl := url)
  }

  function SetAuth(s: Sender, username: string, password: string): (s': Sender)
    ensures s'.targetUrl == s.targetUrl && s'.username == username && s'.password == password
  {
    s.(username := username, password := password)
  }

  /** The header value `attachment; filename="<name>"`. */
  function ContentDisposition(filename: string): string
  {
    "attachment; filename=\"" + filename + "\""
  }

  datatype Header = Header(name: string, value: string)

  /** The POST request: target, optional basic-auth credentials, headers in
      the order they are added, and the body bytes. */
  datatype Request = Request(
    url: string,
    basicAuth: Option<(string, string)>,
    headers: seq<Header>,
    body: seq<uint8>)

  datatype Outcome =
    | NoTargetUrl            // returned before any request is prepared
    | BeginFailed            // `http.begin` refused the URL
    | Posted(request: Request, code: int)

  datatype Sent = Sent(outcome: Outcome, success: bool)

  /** The success rule: only HTTP 200 and 201 count. */
  predicate Accepted(code: int) {
    code == 200 || code == 201
  }

  /** The request `sendFile` prepares once `http.begin` has succeeded. */
  function BuildRequest(s: Sender, data: seq<uint8>, t: FileType, filename: string): (r: Request)
    // basic auth only with both a user name and a password
    ensures r.basicAuth.Some? <==> s.username != "" && s.password != ""
    ensures r.basicAuth.Some? ==> r.basicAuth.value == (s.username, s.password)
    ensures r.headers == [
      Header("Content-Type", ContentType(t)),
      Header("Content-Disposition", ContentDisposition(filename)),
      Header("X-File-Type", FileTypeHeader(t))]
    ensures r.url == s.targetUrl && r.body == data
  {
    var auth := if s.username != "" && s.password != "" then Some((s.username, s.password)) else None;
    Request(s.targetUrl, auth,
      [Header("Content-Type", ContentType(t)),
       Header("Content-Disposition", ContentDisposition(filename)),
       Header("X-File-Type", FileTypeHeader(t))],
      data)
  }

  /** `sendFile`, given whether `http.begin` succeeds and the code `POST`
      returns. */
  function SendFile(s: Sender, data: seq<uint8>, t: FileType, filename: string,
                    beginOk: bool, httpCode: int): (r: Sent)
    ensures s.targetUrl == "" ==> r.outcome == NoTargetUrl
    ensures s.targetUrl != "" && !beginOk ==> r.outcome == BeginFailed
    ensures s.targetUrl != "" && beginOk ==>
      r.outcome == Posted(BuildRequest(s, data, t, filename), httpCode)
    ensures r.success <==> s.targetUrl != "" && beginOk && Accepted(httpCode)
  {
    if s.targetUrl == "" then Sent(NoTargetUrl, false)
    else if !beginOk then Sent(BeginFailed, false)
    else
      var request := BuildRequest(s, data, t, filename);
      var success := httpCode > 0 && (httpCode == 200 || httpCode == 201);
      Sent(Posted(request, httpCode), success)
  }

  /** Redirects, other 2xx codes, server errors and client errors (codes
      at or below zero) all report failure. */
  lemma OnlyOkAndCreatedSucceed(s: Sender, data: seq<uint8>, t: FileType, filename: string, httpCode: int)
    requires s.targetUrl != ""
    requires httpCode !in {200, 201}
    ensures !SendFile(s, data, t, filename, true, httpCode).success
  {
  }
}

=== FILE: handlers.dfy ===
/** The HTTP handlers (app/interface/handler) as functions from a request
    to a status code and a body, composed with the use cases over the
    in-memory repositories. The JSON request body is given as what the
    decoder made of it (`None` for a malformed body; a missing numeric
    field decodes as 0). A query parameter is a string, empty when absent.
    The authenticated user ID is the one the middleware put in the
    request context. */
module Handlers {
  import opened Common
  import opened Text
  import opened Entities
  import opened Repositories
  import opened AuthUsecase
  import opened RoomUsecase
  import opened Presenters

  const StatusOk := 200
  const StatusCreated := 201
  const StatusBadRequest := 400
  const StatusUnauthorized := 401
  const StatusNotFound := 404
  const StatusInternalServerError := 500

  /** A response body: a JSON value, one of the auth presenter's records,
      or the plain-text message `http.Error` writes (followed there by a
      newline). */
  datatype Body =
    | JsonBody(json: Json)
    | AuthBody(auth: AuthResponse)
    | UserBody(user: UserResponse)
    | PlainText(text: string)

  datatype Response = Response(status: int, body: Body)

  /** A response together with the repository the request left behind. */
  datatype Handled = Handled(db: Db, response: Response)

  /** A JSON object with a single string field. */
  function Message(key: string, text: string): Json
  {
    JObject(map[key := JString(text)])
  }

  function ErrorJson(status: int, message: string): Response
  {
    Response(status, JsonBody(PresentError(message)))
  }

  // ---------------------------------------------------------------------
  // Room handler
  // ---------------------------------------------------------------------

  /** `GetAllRooms`. */
  function GetAllRoomsHandler(db: Db): (r: Response)
    ensures r.status == StatusOk <==> db.online
    ensures r.status == StatusOk ==> r.body == JsonBody(PresentRooms(db.rooms))
    ensures r.status != StatusOk ==> r == ErrorJson(StatusInternalServerError, "Failed to fetch rooms")
  {
    match GetAllRooms(db)
    case Err(_) => ErrorJson(StatusInternalServerError, "Failed to fetch rooms")
    case Ok(rooms) => Response(StatusOk, JsonBody(PresentRooms(rooms)))
  }

  /** `GetMyBookings`. */
  function GetMyBookingsHandler(db: Db, userId: nat): (r: Response)
    ensures r.status == StatusOk <==> db.online
    ensures r.status == StatusOk ==> r.body == JsonBody(PresentUserRooms(GetUserRooms(db, userId).value))
    ensures r.status != StatusOk ==> r == ErrorJson(StatusInternalServerError, "Failed to fetch bookings")
  {
    match GetUserRooms(db, userId)
    case Err(_) => ErrorJson(StatusInternalServerError, "Failed to fetch bookings")
    case Ok(bookings) => Response(StatusOk, JsonBody(PresentUserRooms(bookings)))
  }

  /** The `{"room_id": ...}` body of a booking request. */
  datatype BookRequest = BookRequest(roomId: nat)

  /** `BookRoom`: every failure is a 400; the use case's error text is
      passed through. */
  function BookRoomHandler(db: Db, userId: nat, request: Option<BookRequest>, bleUuid: NonEmptyString, now: Instant): (r: Handled)
    ensures request.None? ==> r == Handled(db, ErrorJson(StatusBadRequest, "Invalid request body"))
    ensures request.Some? && request.value.roomId == 0 ==>
      r == Handled(db, ErrorJson(StatusBadRequest, "Room ID is required"))
    ensures r.response.status in {StatusCreated, StatusBadRequest}
    ensures r.response.status == StatusCreated <==>
      request.Some? && request.value.roomId != 0 && BookRoom(db, userId, request.value.roomId, bleUuid, now).error.None?
    ensures r.response.status == StatusCreated ==> r.db == BookRoom(db, userId, request.value.roomId, bleUuid, now).db
    ensures r.response.status != StatusCreated ==> r.db == db
    ensures request.Some? && request.value.roomId != 0 && BookRoom(db, userId, request.value.roomId, bleUuid, now).error.Some? ==>
      r.response == ErrorJson(StatusBadRequest, RoomMessage(BookRoom(db, userId, request.value.roomId, bleUuid, now).error.value))
  {
    match request
    case None => Handled(db, ErrorJson(StatusBadRequest, "Invalid request body"))
    case Some(req) =>
      if req.roomId == 0 then Handled(db, ErrorJson(StatusBadRequest, "Room ID is required"))
      else
        var booked := BookRoom(db, userId, req.roomId, bleUuid, now);
        match booked.error
        case Some(e) => Handled(db, ErrorJson(StatusBadRequest, RoomMessage(e)))
        case None => Handled(booked.db, Response(StatusCreated, JsonBody(Message("message", "Room booked successfully"))))
  }

  /** Booking the same room twice: the second request is a 400 carrying
      the duplicate-booking text and leaves the repository as the first
      one left it. */
  lemma BookTwiceRejected(db: Db, userId: nat, roomId: nat, u1: NonEmptyString, u2: NonEmptyString, t1: Instant, t2: Instant)
    requires roomId != 0
    requires BookRoomHandler(db, userId, Some(BookRequest(roomId)), u1, t1).response.status == StatusCreated
    ensures var first := BookRoomHandler(db, userId, Some(BookRequest(roomId)), u1, t1);
      BookRoomHandler(first.db, userId, Some(BookRequest(roomId)), u2, t2) ==
        Handled(first.db, ErrorJson(StatusBadRequest, "room already booked by this user"))
  {
    var first := BookRoomHandler(db, userId, Some(BookRequest(roomId)), u1, t1);
    var added := UserRoom(db.nextBookingId, userId, roomId, u1, t1, ZeroUser, ZeroRoom);
    assert added in first.db.bookings;
    assert first.db.rooms == db.rooms;
  }

  /** `CancelBooking`: the `id` parameter must be present and a decimal
      number of at most 32 bits. */
  function CancelBookingHandler(db: Db, userId: nat, idParam: string): (r: Handled)
    ensures idParam == "" ==> r == Handled(db, ErrorJson(StatusBadRequest, "Booking ID is required"))
    ensures idParam != "" && ParseUint32(idParam).None? ==>
      r == Handled(db, ErrorJson(StatusBadRequest, "Invalid booking ID"))
    ensures r.response.status == StatusOk <==> ParseUint32(idParam).Some? && db.online
    ensures ParseUint32(idParam).Some? && !db.online ==>
      r == Handled(db, ErrorJson(StatusInternalServerError, "Failed to cancel booking"))
    ensures r.response.status == StatusOk ==> r.db == CancelBooking(db, userId, ParseUint32(idParam).value).db
    ensures r.response.status != StatusOk ==> r.db == db
  {
    if idParam == "" then Handled(db, ErrorJson(StatusBadRequest, "Booking ID is required"))
    else match ParseUint32(idParam)
      case None => Handled(db, ErrorJson(StatusBadRequest, "Invalid booking ID"))
      case Some(bookingId) =>
        var cancelled := CancelBooking(db, userId, bookingId);
        if cancelled.error.Some? then Handled(db, ErrorJson(StatusInternalServerError, "Failed to cancel booking"))
        else Handled(cancelled.db, Response(StatusOk, JsonBody(Message("message", "Booking cancelled successfully"))))
  }

  /** The decimal rendering of a 32-bit booking ID cancels that booking. */
  lemma CancelByDecimalId(db: Db, userId: nat, n: nat)
    requires n <= MaxUint32 && db.online
    ensures CancelBookingHandler(db, userId, Decimal(n)).response.status == StatusOk
    ensures forall b :: b in CancelBookingHandler(db, userId, Decimal(n)).db.bookings <==>
      b in db.bookings && b.id != n
  {
    ParseDecimal(n);
  }

  /** A sign or a space in front of the digits is "Invalid booking ID". */
  lemma SignedOrSpacedIdRejected(db: Db, userId: nat)
    ensures CancelBookingHandler(db, userId, "+1").response == ErrorJson(StatusBadRequest, "Invalid booking ID")
    ensures CancelBookingHandler(db, userId, " 1").response == ErrorJson(StatusBadRequest, "Invalid booking ID")
  {
    assert !IsDigit("+1"[0]) && !IsDigit(" 1"[0]);
  }

  /** So is any ID beyond 32 bits, even though it is well-formed decimal. */
  lemma WideIdRejected(db: Db, userId: nat, n: nat)
    requires n > MaxUint32
    ensures CancelBookingHandler(db, userId, Decimal(n)) == Handled(db, ErrorJson(StatusBadRequest, "Invalid booking ID"))
  {
  }

  /** `GetBleUuid`: the `room_id` parameter must be present and a decimal
      number of at most 32 bits; the answer lists the room's non-empty BLE
      UUIDs. The error bodies are plain JSON maps, not the presenter's. */
  method GetBleUuidHandler(db: Db, roomIdParam: string) returns (r: Response)
    ensures roomIdParam == "" ==> r == Response(StatusBadRequest, JsonBody(Message("error", "room_id is required")))
    ensures roomIdParam != "" && ParseUint32(roomIdParam).None? ==>
      r == Response(StatusBadRequest, JsonBody(Message("error", "invalid room_id")))
    ensures ParseUint32(roomIdParam).Some? && !db.online ==>
      r == Response(StatusInternalServerError, JsonBody(Message("error", "failed to fetch ble_uuid")))
    ensures r.status == StatusOk <==> ParseUint32(roomIdParam).Some? && db.online
    ensures r.status == StatusOk ==>
      var uuids := NonEmptyUuids(BookingsOfRoom(db.bookings, ParseUint32(roomIdParam).value));
      r.body == JsonBody(JObject(map["ble_uuids" := JList(seq(|uuids|, i requires 0 <= i < |uuids| => JString(uuids[i])))]))
  {
    if roomIdParam == "" {
      return Response(StatusBadRequest, JsonBody(Message("error", "room_id is required")));
    }
    var parsed := ParseUint32Loop(roomIdParam);
    if parsed.None? {
      return Response(StatusBadRequest, JsonBody(Message("error", "invalid room_id")));
    }
    var uuids := GetBleUuidByRoomId(db, parsed.value);
    if uuids.Err? {
      return Response(StatusInternalServerError, JsonBody(Message("error", "failed to fetch ble_uuid")));
    }
    var list := seq(|uuids.value|, i requires 0 <= i < |uuids.value| => JString(uuids.value[i]));
    return Response(StatusOk, JsonBody(JObject(map["ble_uuids" := JList(list)])));
  }

  // ---------------------------------------------------------------------
  // Auth handler
  // ---------------------------------------------------------------------

  /** The `{"email", "password", "name"}` body of a registration. */
  datatype RegisterRequest = RegisterRequest(email: string, password: string, name: string)

  /** The `{"email", "password"}` body of a login. */
  datatype LoginRequest = LoginRequest(email: string, password: string)

  /** `Register`: a use-case error is a 500 carrying its text. */
  function RegisterHandler(db: Db, crypto: Crypto, request: Option<RegisterRequest>, now: Instant): (r: Handled)
    ensures request.None? ==> r == Handled(db, Response(StatusBadRequest, PlainText("Invalid request body")))
    ensures request.Some? ==>
      var reg := Register(db, crypto, request.value.email, request.value.password, request.value.name, now);
      && r.db == reg.db
      && (reg.result.Err? ==> r.response == Response(StatusInternalServerError, PlainText(AuthMessage(reg.result.error))))
      && (reg.result.Ok? ==>
            r.response == Response(StatusCreated, AuthBody(ToAuthResponse(reg.result.value.user, reg.result.value.token))))
  {
    match request
    case None => Handled(db, Response(StatusBadRequest, PlainText("Invalid request body")))
    case Some(req) =>
      var reg := Register(db, crypto, req.email, req.password, req.name, now);
      match reg.result
      case Err(e) => Handled(reg.db, Response(StatusInternalServerError, PlainText(AuthMessage(e))))
      case Ok(session) => Handled(reg.db, Response(StatusCreated, AuthBody(ToAuthResponse(session.user, session.token))))
  }

  /** A validation failure reaches the client as a 500 with the validation
      message, and stores nothing. */
  lemma InvalidRegistrationIsServerError(db: Db, crypto: Crypto, req: RegisterRequest, now: Instant)
    requires Validate(User(0, req.email, req.password, req.name, ZeroTime)).Some?
    ensures RegisterHandler(db, crypto, Some(req), now) ==
      Handled(db, Response(StatusInternalServerError,
        PlainText(ValidationMessage(Validate(User(0, req.email, req.password, req.name, ZeroTime)).value))))
  {
  }

  /** `Login` at instant `now`: every use-case error is the same 401. */
  function LoginHandler(db: Db, crypto: Crypto, request: Option<LoginRequest>, now: Instant): (r: Response)
    ensures request.None? ==> r == Response(StatusBadRequest, PlainText("Invalid request body"))
    ensures request.Some? ==>
      var result := Login(db, crypto, request.value.email, request.value.password, now);
      && (result.Err? ==> r == Response(StatusUnauthorized, PlainText("Unauthorized")))
      && (result.Ok? ==> r == Response(StatusOk, AuthBody(ToAuthResponse(result.value.user, result.value.token))))
  {
    match request
    case None => Response(StatusBadRequest, PlainText("Invalid request body"))
    case Some(req) =>
      match Login(db, crypto, req.email, req.password, now)
      case Err(_) => Response(StatusUnauthorized, PlainText("Unauthorized"))
      case Ok(session) => Response(StatusOk, AuthBody(ToAuthResponse(session.user, session.token)))
  }

  /** An unknown email and a wrong password are indistinguishable to the
      client. */
  lemma LoginFailuresIndistinguishable(db: Db, crypto: Crypto, unknown: string, known: string, password: string, now: Instant)
    requires db.online
    requires forall u :: u in db.users ==> u.email != unknown
    requires FindByEmail(db, known).Ok? && !crypto.matches(FindByEmail(db, known).value.password, password)
    ensures LoginHandler(db, crypto, Some(LoginRequest(unknown, password)), now) ==
      LoginHandler(db, crypto, Some(LoginRequest(known, password)), now)
    ensures LoginHandler(db, crypto, Some(LoginRequest(unknown, password)), now).status == StatusUnauthorized
  {
  }

  /** `Me`: the authenticated user's record, or 404 when the lookup fails
      for any reason. */
  function MeHandler(db: Db, userId: nat): (r: Response)
    ensures r.status == StatusOk <==> db.online && exists u :: u in db.users && u.id == userId
    ensures r.status == StatusOk ==>
      && GetUserById(db, userId).Ok?
      && r.body == UserBody(ToUserResponse(GetUserById(db, userId).value))
      && r.body.user.id == userId
    ensures r.status != StatusOk ==> r == Response(StatusNotFound, PlainText("User not found"))
  {
    match GetUserById(db, userId)
    case Err(_) => Response(StatusNotFound, PlainText("User not found"))
    case Ok(u) => Response(StatusOk, UserBody(ToUserResponse(u)))
  }

  /** Since user IDs are unique, `Me` shows each stored user's own email,
      name and creation time. */
  lemma MeShowsStoredUser(db: Db, u: User)
    requires AutoIncrement(db) && db.online && u in db.users
    ensures MeHandler(db, u.id) == Response(StatusOk, UserBody(ToUserResponse(u)))
  {
    FindUserByIdUnique(db, u);
  }

  /** A user who registered can read their own record back, without the
      password, through `Me`. */
  lemma RegisterThenMe(db: Db, crypto: Crypto, req: RegisterRequest, now: Instant)
    requires AutoIncrement(db)
    requires RegisterHandler(db, crypto, Some(req), now).response.status == StatusCreated
    ensures var reg := RegisterHandler(db, crypto, Some(req), now);
      MeHandler(reg.db, reg.response.body.auth.user.id) == Response(StatusOk, UserBody(reg.response.body.auth.user))
  {
    var reg := Register(db, crypto, req.email, req.password, req.name, now);
    var u := reg.result.value.user;
    assert u in reg.db.users;
    FirstIsEarliest(reg.db.users, (x: User) => x.id == u.id, |db.users|);
  }
}

=== FILE: presenters.dfy ===
/** The response builders (app/interface/presenter). The room presenter
    builds untyped JSON objects (`map[string]interface{}`); the auth
    presenter builds typed records. Times appear as their RFC 3339 text. */
module Presenters {
  import opened Common
  import opened Entities

  /** The JSON values the presenters produce. */
  datatype Json =
    | JNat(n: nat)
    | JString(s: string)
    | JList(items: seq<Json>)
    | JObject(fields: map<string, Json>)

  // ---------------------------------------------------------------------
  // Room presenter
  // ---------------------------------------------------------------------

  /** `PresentRoom`. */
  function PresentRoom(room: Room): (j: Json)
    ensures j.JObject? && j.fields.Keys == {"id", "room_name", "created_at"}
  {
    JObject(map[
      "id" := JNat(room.id),
      "room_name" := JString(room.roomName),
      "created_at" := JString(room.createdAt.rfc3339)])
  }

  /** Reads a room back from its presentation. */
  function RoomOf(j: Json): Option<Room>
  {
    if j.JObject? && "id" in j.fields && "room_name" in j.fields && "created_at" in j.fields
       && j.fields["id"].JNat? && j.fields["room_name"].JString? && j.fields["created_at"].JString?
    then Some(Room(j.fields["id"].n, j.fields["room_name"].s, Instant(j.fields["created_at"].s)))
    else None
  }

  /** A presented room carries every field of the room. */
  lemma PresentRoomRoundTrip(room: Room)
    ensures RoomOf(PresentRoom(room)) == Some(room)
  {
  }

  /** Reads a list of rooms back, entry by entry. */
  function RoomsOf(items: seq<Json>): Option<seq<Room>>
  {
    if |items| == 0 then Some([])
    else match (RoomOf(items[0]), RoomsOf(items[1..]))
      case (Some(room), Some(rest)) => Some([room] + rest)
      case _ => None
  }

  /** `PresentRooms`: the list under `rooms` and its length under `count`. */
  function PresentRooms(rooms: seq<Room>): (j: Json)
    ensures j.JObject? && j.fields.Keys == {"rooms", "count"}
    ensures j.fields["rooms"].JList? && |j.fields["rooms"].items| == |rooms|
    ensures j.fields["count"] == JNat(|j.fields["rooms"].items|)
  {
    var roomList := seq(|rooms|, i requires 0 <= i < |rooms| => PresentRoom(rooms[i]));
    JObject(map["rooms" := JList(roomList), "count" := JNat(|rooms|)])
  }

  /** The list entries are the presented rooms in their order: reading them
      back gives the rooms. */
  lemma {:induction false} PresentRoomsRoundTrip(rooms: seq<Room>)
    ensures RoomsOf(PresentRooms(rooms).fields["rooms"].items) == Some(rooms)
    decreases |rooms|
  {
    var items := PresentRooms(rooms).fields["rooms"].items;
    if |rooms| > 0 {
      PresentRoomsRoundTrip(rooms[1..]);
      assert items[1..] == PresentRooms(rooms[1..]).fields["rooms"].items;
      PresentRoomRoundTrip(rooms[0]);
      assert rooms == [rooms[0]] + rooms[1..];
    }
  }

  /** `PresentUserRoom`: the booking's own fields, plus the presented room
      under `room` when a room was loaded (its ID is not zero). The user is
      never presented. */
  function PresentUserRoom(b: UserRoom): (j: Json)
    ensures j.JObject?
    ensures "room" in j.fields <==> b.room.id != 0
    ensures j.fields.Keys - {"room"} == {"id", "user_id", "room_id", "ble_uuid", "created_at"}
  {
    var result := map[
      "id" := JNat(b.id),
      "user_id" := JNat(b.userId),
      "room_id" := JNat(b.roomId),
      "ble_uuid" := JString(b.bleUuid),
      "created_at" := JString(b.createdAt.rfc3339)];
    if b.room.id != 0 then JObject(result["room" := PresentRoom(b.room)])
    else JObject(result)
  }

  /** Reads a booking back; an absent `room` reads as the zero room and the
      user, never presented, as the zero user. */
  function BookingOf(j: Json): Option<UserRoom>
  {
    if j.JObject? && "id" in j.fields && "user_id" in j.fields && "room_id" in j.fields
       && "ble_uuid" in j.fields && "created_at" in j.fields
       && j.fields["id"].JNat? && j.fields["user_id"].JNat? && j.fields["room_id"].JNat?
       && j.fields["ble_uuid"].JString? && j.fields["created_at"].JString?
    then
      var room := if "room" in j.fields then RoomOf(j.fields["room"]) else Some(ZeroRoom);
      if room.None? then None
      else Some(UserRoom(j.fields["id"].n, j.fields["user_id"].n, j.fields["room_id"].n,
                         j.fields["ble_uuid"].s, Instant(j.fields["created_at"].s), ZeroUser, room.value))
    else None
  }

  /** What a presented booking keeps: everything but the user, and the room
      only when it was loaded. */
  lemma PresentUserRoomRoundTrip(b: UserRoom)
    ensures BookingOf(PresentUserRoom(b)) ==
      Some(b.(user := ZeroUser, room := if b.room.id != 0 then b.room else ZeroRoom))
  {
    if b.room.id != 0 {
      PresentRoomRoundTrip(b.room);
    }
  }

  function BookingsOf(items: seq<Json>): Option<seq<UserRoom>>
  {
    if |items| == 0 then Some([])
    else match (BookingOf(items[0]), BookingsOf(items[1..]))
      case (Some(b), Some(rest)) => Some([b] + rest)
      case _ => None
  }

  /** What a booking looks like after presenting and reading back. */
  function Presented(b: UserRoom): UserRoom
  {
    b.(user := ZeroUser, room := if b.room.id != 0 then b.room else ZeroRoom)
  }

  /** `PresentUserRooms`: the list under `bookings` and its length under
      `count`. */
  function PresentUserRooms(bs: seq<UserRoom>): (j: Json)
    ensures j.JObject? && j.fields.Keys == {"bookings", "count"}
    ensures j.fields["bookings"].JList? && |j.fields["bookings"].items| == |bs|
    ensures j.fields["count"] == JNat(|j.fields["bookings"].items|)
  {
    var bookingList := seq(|bs|, i requires 0 <= i < |bs| => PresentUserRoom(bs[i]));
    JObject(map["bookings" := JList(bookingList), "count" := JNat(|bs|)])
  }

  /** Entries map pointwise and in order. */
  lemma {:induction false} PresentUserRoomsRoundTrip(bs: seq<UserRoom>)
    ensures BookingsOf(PresentUserRooms(bs).fields["bookings"].items) ==
      Some(seq(|bs|, i requires 0 <= i < |bs| => Presented(bs[i])))
    decreases |bs|
  {
    var items := PresentUserRooms(bs).fields["bookings"].items;
    if |bs| > 0 {
      PresentUserRoomsRoundTrip(bs[1..]);
      assert items[1..] == PresentUserRooms(bs[1..]).fields["bookings"].items;
      PresentUserRoomRoundTrip(bs[0]);
      var want := seq(|bs|, i requires 0 <= i < |bs| => Presented(bs[i]));
      assert want == [Presented(bs[0])] + seq(|bs| - 1, i requires 0 <= i < |bs| - 1 => Presented(bs[1..][i]));
    }
  }

  /** `PresentError`. */
  function PresentError(message: string): (j: Json)
    ensures j.JObject? && j.fields.Keys == {"error"}
  {
    JObject(map["error" := JString(message)])
  }

  /** The error text read back from an error object. */
  function ErrorOf(j: Json): Option<string>
  {
    if j.JObject? && j.fields.Keys == {"error"} && j.fields["error"].JString? then Some(j.fields["error"].s)
    else None
  }

  lemma PresentErrorRoundTrip(message: string)
    ensures ErrorOf(PresentError(message)) == Some(message)
  {
  }

  // ---------------------------------------------------------------------
  // Auth presenter
  // ---------------------------------------------------------------------

  /** `UserResponse`: a user without the password. */
  datatype UserResponse = UserResponse(id: nat, email: string, name: string, createdAt: Instant)

  datatype AuthResponse = AuthResponse(token: string, user: UserResponse)

  datatype ErrorResponse = ErrorResponse(error: string)

  /** `ToUserResponse`. */
  function ToUserResponse(u: User): (r: UserResponse)
    ensures r.id == u.id && r.email == u.email && r.name == u.name && r.createdAt == u.createdAt
  {
    UserResponse(u.id, u.email, u.name, u.createdAt)
  }

  /** The password cannot be exposed: two users differing only in their
      password are presented identically, and every other field is kept. */
  lemma PasswordNotExposed(u: User, password: string)
    ensures ToUserResponse(u.(password := password)) == ToUserResponse(u)
    ensures forall v: User :: ToUserResponse(v) == ToUserResponse(u) <==> v == u.(password := v.password)
  {
  }

  /** `ToAuthResponse`. */
  function ToAuthResponse(u: User, token: string): (r: AuthResponse)
    ensures r.token == token && r.user == ToUserResponse(u)
  {
    AuthResponse(token, ToUserResponse(u))
  }

  /** `ToErrorResponse`. */
  function ToErrorResponse(message: string): (r: ErrorResponse)
    ensures r.error == message
  {
    ErrorResponse(message)
  }
}

=== FILE: repositories.dfy ===
/** In-memory repositories following the interfaces in
    app/domain/repository: users, rooms and bookings held in one database
    record, in insertion order. The `online` flag stands for every database
    failure at once: while it is false each repository call returns an
    error and changes nothing. IDs are assigned by auto-increment; a query
    for one record returns the first match in insertion (= primary key)
    order, as GORM's `First` does; a missing record is `RecordNotFound`. */
module Repositories {
  import opened Common
  import opened Entities

  datatype DbError = RecordNotFound | Unavailable

  /** The error text: GORM's `ErrRecordNotFound` reads "record not found";
      the driver's own text for other failures is abstracted to one string. */
  function DbMessage(e: DbError): string
  {
    match e
    case RecordNotFound => "record not found"
    case Unavailable => "database error"
  }

  datatype Db = Db(
    users: seq<User>,
    rooms: seq<Room>,
    bookings: seq<UserRoom>,
    nextUserId: nat,
    nextBookingId: nat,
    online: bool)

  /** Booking IDs grow strictly along the table. */
  predicate AscendingBookings(bs: seq<UserRoom>) {
    forall i, j :: 0 <= i < j < |bs| ==> bs[i].id < bs[j].id
  }

  /** The IDs auto-increment leaves behind: they start at 1 (so 0 can mean
      "no record", as a zero-valued struct does), grow strictly in insertion
      order (so insertion order is primary-key order) and stay below the
      next ID to assign. Rooms are seeded outside the application; their IDs
      are positive and ascending likewise. */
  predicate AutoIncrement(db: Db) {
    && 1 <= db.nextUserId && 1 <= db.nextBookingId
    && (forall i :: 0 <= i < |db.users| ==> 1 <= db.users[i].id < db.nextUserId)
    && (forall i, j :: 0 <= i < j < |db.users| ==> db.users[i].id < db.users[j].id)
    && (forall i :: 0 <= i < |db.bookings| ==> 1 <= db.bookings[i].id < db.nextBookingId)
    && AscendingBookings(db.bookings)
    && (forall i :: 0 <= i < |db.rooms| ==> 1 <= db.rooms[i].id)
    && (forall i, j :: 0 <= i < j < |db.rooms| ==> db.rooms[i].id < db.rooms[j].id)
  }

  /** A record created by `Create`, with the database it was added to. */
  datatype Created<T> = Created(db: Db, record: T)

  // ---------------------------------------------------------------------
  // Generic helpers
  // ---------------------------------------------------------------------

  /** The elements satisfying `p`, in their original order. */
  function Filter<T(!new)>(s: seq<T>, p: T -> bool): (r: seq<T>)
    ensures |r| <= |s|
    ensures forall x :: x in r <==> x in s && p(x)
    ensures forall i :: 0 <= i < |r| ==> p(r[i])
  {
    if |s| == 0 then []
    else (if p(s[0]) then [s[0]] else []) + Filter(s[1..], p)
  }

  /** Filtering keeps every occurrence of a passing element and drops every
      occurrence of a failing one. */
  lemma {:induction false} FilterCount<T(!new)>(s: seq<T>, p: T -> bool, x: T)
    ensures multiset(Filter(s, p))[x] == if p(x) then multiset(s)[x] else 0
    decreases |s|
  {
    if |s| > 0 {
      assert s == [s[0]] + s[1..];
      FilterCount(s[1..], p, x);
    }
  }

  /** Filtering works piecewise, so it keeps the order of the input. */
  lemma {:induction false} FilterAppend<T(!new)>(s: seq<T>, t: seq<T>, p: T -> bool)
    ensures Filter(s + t, p) == Filter(s, p) + Filter(t, p)
    decreases |s|
  {
    if |s| == 0 {
      assert s + t == t;
    } else {
      assert (s + t)[0] == s[0];
      assert (s + t)[1..] == s[1..] + t;
      FilterAppend(s[1..], t, p);
    }
  }

  /** A booking whose ID is below every ID of an ascending table can go in
      front of it. */
  lemma AscendingCons(h: UserRoom, t: seq<UserRoom>)
    requires AscendingBookings(t)
    requires forall x :: x in t ==> h.id < x.id
    ensures AscendingBookings([h] + t)
  {
    var r := [h] + t;
    forall i, j | 0 <= i < j < |r|
      ensures r[i].id < r[j].id
    {
      assert r[j] == t[j - 1];
      if i > 0 {
        assert r[i] == t[i - 1];
      }
    }
  }

  /** A filtered table keeps its IDs ascending. */
  lemma {:induction false} FilterKeepsAscending(bs: seq<UserRoom>, p: UserRoom -> bool)
    requires AscendingBookings(bs)
    ensures AscendingBookings(Filter(bs, p))
    decreases |bs|
  {
    if |bs| > 0 {
      var tail := bs[1..];
      assert AscendingBookings(tail) by {
        forall i, j | 0 <= i < j < |tail|
          ensures tail[i].id < tail[j].id
        {
          assert tail[i] == bs[i + 1] && tail[j] == bs[j + 1];
        }
      }
      FilterKeepsAscending(tail, p);
      if p(bs[0]) {
        var rest := Filter(tail, p);
        forall x | x in rest
          ensures bs[0].id < x.id
        {
          var k :| 0 <= k < |tail| && tail[k] == x;
          assert bs[k + 1] == x;
        }
        AscendingCons(bs[0], rest);
      }
    }
  }

  /** The first element satisfying `p`, if any. */
  function First<T(!new)>(s: seq<T>, p: T -> bool): (r: Option<T>)
    ensures r.Some? <==> exists x :: x in s && p(x)
    ensures r.Some? ==> r.value in s && p(r.value)
  {
    if |s| == 0 then None
    else if p(s[0]) then Some(s[0])
    else
      assert forall x :: x in s && x != s[0] ==> x in s[1..];
      First(s[1..], p)
  }

  /** `First` picks the earliest match: the element at the lowest index
      satisfying `p`. */
  lemma {:induction false} FirstIsEarliest<T(!new)>(s: seq<T>, p: T -> bool, k: nat)
    requires k < |s| && p(s[k])
    requires forall j :: 0 <= j < k ==> !p(s[j])
    ensures First(s, p) == Some(s[k])
    decreases k
  {
    if k > 0 {
      assert forall j :: 0 <= j < k - 1 ==> s[1..][j] == s[j + 1];
      FirstIsEarliest(s[1..], p, k - 1);
    }
  }

  /** No match comes before the one `First` picks. */
  lemma {:induction false} FirstNoLaterThan<T(!new)>(s: seq<T>, p: T -> bool, b: nat)
    requires b < |s| && p(s[b])
    ensures exists a :: 0 <= a <= b && First(s, p) == Some(s[a])
    decreases b
  {
    if !p(s[0]) {
      FirstNoLaterThan(s[1..], p, b - 1);
      var a :| 0 <= a <= b - 1 && First(s[1..], p) == Some(s[1..][a]);
      assert First(s, p) == Some(s[a + 1]);
    }
  }

  // ---------------------------------------------------------------------
  // UserRepository
  // ---------------------------------------------------------------------

  /** `Create`: the user gets the next ID and the creation time. */
  function CreateUser(db: Db, u: User, now: Instant): (r: Result<Created<User>, DbError>)
    ensures !db.online <==> r == Err(Unavailable)
    ensures r.Ok? ==>
      && r.value.record == u.(id := db.nextUserId, createdAt := now)
      && r.value.db == db.(users := db.users + [r.value.record], nextUserId := db.nextUserId + 1)
    ensures r.Ok? && AutoIncrement(db) ==> AutoIncrement(r.value.db)
  {
    if !db.online then Err(Unavailable)
    else
      var created := u.(id := db.nextUserId, createdAt := now);
      Ok(Created(db.(users := db.users + [created], nextUserId := db.nextUserId + 1), created))
  }

  /** `FindByEmail`: the first user registered with that email. */
  function FindByEmail(db: Db, email: string): (r: Result<User, DbError>)
    ensures !db.online ==> r == Err(Unavailable)
    ensures db.online ==> (r.Ok? <==> exists u :: u in db.users && u.email == email)
    ensures r.Ok? ==> r.value in db.users && r.value.email == email
    ensures r.Err? ==> r.error == Unavailable || r.error == RecordNotFound
  {
    if !db.online then Err(Unavailable)
    else match First(db.users, (u: User) => u.email == email)
      case Some(u) => Ok(u)
      case None => Err(RecordNotFound)
  }

  /** `FindByID` on users. */
  function FindUserById(db: Db, id: nat): (r: Result<User, DbError>)
    ensures !db.online ==> r == Err(Unavailable)
    ensures db.online ==> (r.Ok? <==> exists u :: u in db.users && u.id == id)
    ensures r.Ok? ==> r.value in db.users && r.value.id == id
  {
    if !db.online then Err(Unavailable)
    else match First(db.users, (u: User) => u.id == id)
      case Some(u) => Ok(u)
      case None => Err(RecordNotFound)
  }

  /** `First` after `Where("email = ?")` is the match with the least primary
      key: no user with that email has a smaller ID than the one found. */
  lemma FindByEmailLeastId(db: Db, email: string, u: User)
    requires AutoIncrement(db) && db.online
    requires u in db.users && u.email == email
    ensures FindByEmail(db, email).Ok? && FindByEmail(db, email).value.id <= u.id
  {
    var b :| 0 <= b < |db.users| && db.users[b] == u;
    FirstNoLaterThan(db.users, (x: User) => x.email == email, b);
  }

  /** User IDs are unique, so a lookup by ID finds exactly the user
      holding it. */
  lemma FindUserByIdUnique(db: Db, u: User)
    requires AutoIncrement(db) && db.online && u in db.users
    ensures FindUserById(db, u.id) == Ok(u)
  {
    var found := FindUserById(db, u.id).value;
    var a :| 0 <= a < |db.users| && db.users[a] == found;
    var b :| 0 <= b < |db.users| && db.users[b] == u;
    assert db.users[a].id == db.users[b].id;
  }

  // ---------------------------------------------------------------------
  // RoomRepository
  // ---------------------------------------------------------------------

  /** `FindByID` on rooms. */
  function FindRoomById(db: Db, id: nat): (r: Result<Room, DbError>)
    ensures !db.online ==> r == Err(Unavailable)
    ensures db.online ==> (r.Ok? <==> exists room :: room in db.rooms && room.id == id)
    ensures r.Ok? ==> r.value in db.rooms && r.value.id == id
  {
    if !db.online then Err(Unavailable)
    else match First(db.rooms, (room: Room) => room.id == id)
      case Some(room) => Ok(room)
      case None => Err(RecordNotFound)
  }

  /** `FindAll` on rooms. */
  function FindAllRooms(db: Db): (r: Result<seq<Room>, DbError>)
    ensures db.online <==> r == Ok(db.rooms)
    ensures !db.online ==> r == Err(Unavailable)
  {
    if !db.online then Err(Unavailable) else Ok(db.rooms)
  }

  // ---------------------------------------------------------------------
  // UserRoomRepository
  // ---------------------------------------------------------------------

  /** `Create` on bookings: the booking gets the next ID and the creation time. */
  function CreateBooking(db: Db, b: UserRoom, now: Instant): (r: Result<Created<UserRoom>, DbError>)
    ensures !db.online <==> r == Err(Unavailable)
    ensures r.Ok? ==>
      && r.value.record == b.(id := db.nextBookingId, createdAt := now)
      && r.value.db == db.(bookings := db.bookings + [r.value.record], nextBookingId := db.nextBookingId + 1)
    ensures r.Ok? && AutoIncrement(db) ==> AutoIncrement(r.value.db)
  {
    if !db.online then Err(Unavailable)
    else
      var created := b.(id := db.nextBookingId, createdAt := now);
      Ok(Created(db.(bookings := db.bookings + [created], nextBookingId := db.nextBookingId + 1), created))
  }

  /** The room a booking refers to, as `Preload("Room")` fills it in. */
  function PreloadRoom(db: Db, b: UserRoom): UserRoom
  {
    match First(db.rooms, (room: Room) => room.id == b.roomId)
    case Some(room) => b.(room := room)
    case None => b.(room := ZeroRoom)
  }

  /** The user a booking refers to, as `Preload("User")` fills it in. */
  function PreloadUser(db: Db, b: UserRoom): UserRoom
  {
    match First(db.users, (u: User) => u.id == b.userId)
    case Some(u) => b.(user := u)
    case None => b.(user := ZeroUser)
  }

  /** The bookings of one user, in insertion order. */
  function BookingsOfUser(bookings: seq<UserRoom>, userId: nat): seq<UserRoom>
  {
    Filter(bookings, (b: UserRoom) => b.userId == userId)
  }

  /** The bookings of one room, in insertion order. */
  function BookingsOfRoom(bookings: seq<UserRoom>, roomId: nat): seq<UserRoom>
  {
    Filter(bookings, (b: UserRoom) => b.roomId == roomId)
  }

  /** `FindByUserID`: the user's bookings with their rooms preloaded. */
  function FindByUserId(db: Db, userId: nat): (r: Result<seq<UserRoom>, DbError>)
    ensures !db.online <==> r == Err(Unavailable)
    ensures r.Ok? ==> |r.value| == |BookingsOfUser(db.bookings, userId)|
    ensures r.Ok? ==> forall i :: 0 <= i < |r.value| ==>
      r.value[i] == PreloadRoom(db, BookingsOfUser(db.bookings, userId)[i])
  {
    if !db.online then Err(Unavailable)
    else
      var found := BookingsOfUser(db.bookings, userId);
      Ok(seq(|found|, i requires 0 <= i < |found| => PreloadRoom(db, found[i])))
  }

  /** `FindByRoomID`: the room's bookings with their users preloaded. */
  function FindByRoomId(db: Db, roomId: nat): (r: Result<seq<UserRoom>, DbError>)
    ensures !db.online <==> r == Err(Unavailable)
    ensures r.Ok? ==> |r.value| == |BookingsOfRoom(db.bookings, roomId)|
    ensures r.Ok? ==> forall i :: 0 <= i < |r.value| ==>
      r.value[i] == PreloadUser(db, BookingsOfRoom(db.bookings, roomId)[i])
  {
    if !db.online then Err(Unavailable)
    else
      var found := BookingsOfRoom(db.bookings, roomId);
      Ok(seq(|found|, i requires 0 <= i < |found| => PreloadUser(db, found[i])))
  }

  /** `Delete`: removes the booking with that ID. Deleting an ID that does
      not exist is not an error. */
  function DeleteBooking(db: Db, id: nat): (r: Result<Db, DbError>)
    ensures !db.online <==> r == Err(Unavailable)
    ensures r.Ok? ==> forall b :: b in r.value.bookings <==> b in db.bookings && b.id != id
    ensures r.Ok? ==> r.value == db.(bookings := r.value.bookings)
    ensures r.Ok? && AutoIncrement(db) ==> AutoIncrement(r.value)
  {
    if !db.online then Err(Unavailable)
    else
      var keep := (b: UserRoom) => b.id != id;
      var kept := Filter(db.bookings, keep);
      assert AutoIncrement(db) ==> AutoIncrement(db.(bookings := kept)) by {
        if AutoIncrement(db) {
          FilterKeepsAscending(db.bookings, keep);
        }
      }
      Ok(db.(bookings := kept))
  }

  /** `ExistsByUserAndRoom`. */
  function ExistsByUserAndRoom(db: Db, userId: nat, roomId: nat): (r: Result<bool, DbError>)
    ensures !db.online <==> r == Err(Unavailable)
    ensures r.Ok? ==> (r.value <==> exists b :: b in db.bookings && b.userId == userId && b.roomId == roomId)
  {
    if !db.online then Err(Unavailable)
    else Ok(exists b :: b in db.bookings && b.userId == userId && b.roomId == roomId)
  }
}

=== FILE: rgb_controller.dfy ===
/** The RGB unit's LED buffer (src/rgb/rgb_controller.cpp). The controller
    keeps `numLeds` colour cells; `numLeds` is a `uint8_t`, so a strip holds
    at most 255 LEDs. Pushing the buffer to the hardware (`show`) and the
    global brightness are outside the model: only the buffer contents are. */
module RgbController {
  import opened Common

  /** One FastLED `CRGB` cell. */
  datatype Crgb = Crgb(r: uint8, g: uint8, b: uint8)

  const Black := Crgb(0, 0, 0)
  const Red := Crgb(255, 0, 0)
  const Blue := Crgb(0, 0, 255)

  /** The `leds` buffer; its length is `numLeds`. */
  type Strip = s: seq<Crgb> | |s| < 0x100 witness []

  /** Every LED of the strip shows `c`. */
  predicate AllShow(s: seq<Crgb>, c: Crgb) {
    forall i :: 0 <= i < |s| ==> s[i] == c
  }

  /** A strip of `n` LEDs all showing `c`: the reference the fill loops are
      proved against. */
  function Filled(n: uint8, c: Crgb): (s: Strip)
    ensures |s| == n && AllShow(s, c)
  {
    seq(n, _ => c)
  }

  // ---------------------------------------------------------------------
  // 24-bit colour packing
  // ---------------------------------------------------------------------

  /** The colour `setColor` stores for a packed `uint32_t`: red from bits
      16..23 (`(color >> 16) & 0xFF`), green from bits 8..15, blue from bits
      0..7; bits 24..31 are ignored. */
  function Unpack(color: uint32): Crgb
  {
    Crgb((color / 0x1_0000) % 0x100, (color / 0x100) % 0x100, color % 0x100)
  }

  /** `r << 16 | g << 8 | b`. */
  function Pack(c: Crgb): (color: uint32)
    ensures color < 0x100_0000
  {
    c.r * 0x1_0000 + c.g * 0x100 + c.b
  }

  /** Packing a colour and handing it to `setColor` stores that colour. */
  lemma UnpackPack(c: Crgb)
    ensures Unpack(Pack(c)) == c
  {
    var p := Pack(c);
    assert p / 0x1_0000 == c.r;
    assert p / 0x100 == c.r * 0x100 + c.g;
  }

  /** Unpacking then packing keeps exactly the low 24 bits. */
  lemma PackUnpack(color: uint32)
    ensures Pack(Unpack(color)) == color % 0x100_0000
  {
    var x := color / 0x100;
    var y := x / 0x100;
    assert color == 0x100 * x + color % 0x100;
    assert x == 0x100 * y + x % 0x100;
    assert y == color / 0x1_0000;
    var top := y / 0x100;
    assert y == 0x100 * top + y % 0x100;
    assert color == 0x100_0000 * top + (y % 0x100) * 0x1_0000 + (x % 0x100) * 0x100 + color % 0x100;
  }

  // ---------------------------------------------------------------------
  // Per-LED writes
  // ---------------------------------------------------------------------

  /** `setColorRGB(index, r, g, b)`: an in-range write changes that LED only;
      an index at or past `numLeds` changes nothing. */
  function SetColorRgb(s: Strip, index: uint8, r: uint8, g: uint8, b: uint8): (t: Strip)
    ensures |t| == |s|
    ensures index < |s| ==> t[index] == Crgb(r, g, b)
    ensures forall i :: 0 <= i < |s| && i != index ==> t[i] == s[i]
  {
    if index < |s| then s[index := Crgb(r, g, b)] else s
  }

  /** `setColor(index, color)`: the bounds-checked write of an unpacked
      24-bit colour. */
  function SetColor(s: Strip, index: uint8, color: uint32): (t: Strip)
    ensures |t| == |s|
    ensures index < |s| ==> t[index] == Unpack(color)
    ensures forall i :: 0 <= i < |s| && i != index ==> t[i] == s[i]
  {
    var c := Unpack(color);
    SetColorRgb(s, index, c.r, c.g, c.b)
  }

  /** A write past the end leaves the buffer as it was. */
  lemma SetColorOutOfRange(s: Strip, index: uint8, color: uint32)
    requires index >= |s|
    ensures SetColor(s, index, color) == s
  {
  }

  /** `setColor(i, r << 16 | g << 8 | b)` has the effect of
      `setColorRGB(i, r, g, b)`. */
  lemma SetColorPacked(s: Strip, index: uint8, c: Crgb)
    ensures SetColor(s, index, Pack(c)) == SetColorRgb(s, index, c.r, c.g, c.b)
  {
    UnpackPack(c);
  }

  // ---------------------------------------------------------------------
  // Whole-strip fills
  // ---------------------------------------------------------------------

  /** `clear`: every LED is set to black by a `uint8_t` counter loop. */
  method Clear(s: Strip) returns (t: Strip)
    ensures |t| == |s| && AllShow(t, Black)
    ensures t == Filled(|s|, Black)
  {
    t := s;
    var i: uint8 := 0;
    while i < |t|
      invariant i <= |t| == |s|
      invariant forall j :: 0 <= j < i ==> t[j] == Black
    {
      t := t[i := Black];
      i := i + 1;
    }
  }

  /** Paints every LED through `setColorRGB`, as both effects do. */
  method PaintAll(s: Strip, r: uint8, g: uint8, b: uint8) returns (t: Strip)
    ensures |t| == |s| && AllShow(t, Crgb(r, g, b))
  {
    t := s;
    var i: uint8 := 0;
    while i < |t|
      invariant i <= |t| == |s|
      invariant forall j :: 0 <= j < i ==> t[j] == Crgb(r, g, b)
    {
      t := SetColorRgb(t, i, r, g, b);
      i := i + 1;
    }
  }

  /** `lockEffect`: the whole strip turns red. */
  method LockEffect(s: Strip) returns (t: Strip)
    ensures |t| == |s| && AllShow(t, Red)
    ensures t == Filled(|s|, Red)
  {
    t := PaintAll(s, 255, 0, 0);
  }

  /** `unlockEffect`: the whole strip turns blue. */
  method UnlockEffect(s: Strip) returns (t: Strip)
    ensures |t| == |s| && AllShow(t, Blue)
    ensures t == Filled(|s|, Blue)
  {
    t := PaintAll(s, 0, 0, 255);
  }

  /** `init`'s buffer part: `numLeds` freshly allocated cells (whatever they
      held) are cleared. */
  method Init(numLeds: uint8, raw: Strip) returns (t: Strip)
    requires |raw| == numLeds
    ensures |t| == numLeds && AllShow(t, Black)
  {
    t := Clear(raw);
  }

  /** `clear` is idempotent: clearing a cleared strip changes nothing. */
  method ClearTwice(s: Strip) returns (once: Strip, twice: Strip)
    ensures twice == once
    ensures |twice| == |s| && AllShow(twice, Black)
  {
    once := Clear(s);
    twice := Clear(once);
  }

  /** Of two effects the later one wins: `unlockEffect` after
      `lockEffect` leaves the strip blue. */
  method LockThenUnlock(s: Strip) returns (t: Strip)
    ensures t == Filled(|s|, Blue)
  {
    var locked := LockEffect(s);
    t := UnlockEffect(locked);
  }

  /** And `lockEffect` after `unlockEffect` leaves it red. */
  method UnlockThenLock(s: Strip) returns (t: Strip)
    ensures t == Filled(|s|, Red)
  {
    var unlocked := UnlockEffect(s);
    t := LockEffect(unlocked);
  }
}

=== FILE: room_usecase.dfy ===
/** The room booking use cases (app/usecase/room_usecase.go) over the
    in-memory repositories. The BLE UUID a booking receives (`uuid.New`) is
    a parameter; the key server that `GetRoomKeysForUser` asks for public
    keys is an oracle from a room name to the key it returns, `None`
    standing for any transport, status or decoding failure. */
module RoomUsecase {
  import opened Common
  import opened Entities
  import opened Repositories

  datatype RoomError =
    | RoomNotFound
    | AlreadyBooked
    | StoreFailed(cause: DbError)
    | NoBookings
    | KeysUnavailable

  /** `err.Error()` for each error. */
  function RoomMessage(e: RoomError): string
  {
    match e
    case RoomNotFound => "room not found"
    case AlreadyBooked => "room already booked by this user"
    case StoreFailed(cause) => DbMessage(cause)
    case NoBookings => "you have no room bookings"
    case KeysUnavailable => "failed to fetch keys from key server"
  }

  /** The repository after a command and the error it returned, if any. */
  datatype Changed = Changed(db: Db, error: Option<RoomError>)

  /** Whether the user already holds a booking of the room. */
  predicate HasBooking(bookings: seq<UserRoom>, userId: nat, roomId: nat) {
    exists b :: b in bookings && b.userId == userId && b.roomId == roomId
  }

  /** Whether a room with that ID exists. */
  predicate RoomExists(db: Db, roomId: nat) {
    exists room :: room in db.rooms && room.id == roomId
  }

  /** The booking `BookRoom` creates, before the repository fills in its ID
      and creation time. */
  function NewBooking(userId: nat, roomId: nat, bleUuid: NonEmptyString): UserRoom
  {
    UserRoom(0, userId, roomId, bleUuid, ZeroTime, ZeroUser, ZeroRoom)
  }

  /** `BookRoom`: any failure to find the room reads "room not found"; a
      (user, room) pair that is already booked is refused; otherwise one
      booking with a fresh BLE UUID is added. */
  function BookRoom(db: Db, userId: nat, roomId: nat, bleUuid: NonEmptyString, now: Instant): (r: Changed)
    ensures !db.online || !RoomExists(db, roomId) ==> r == Changed(db, Some(RoomNotFound))
    ensures db.online && RoomExists(db, roomId) && HasBooking(db.bookings, userId, roomId) ==>
      r == Changed(db, Some(AlreadyBooked))
    ensures r.error.None? <==> db.online && RoomExists(db, roomId) && !HasBooking(db.bookings, userId, roomId)
    ensures r.error.Some? ==> r.db == db
    ensures r.error.None? ==>
      var added := UserRoom(db.nextBookingId, userId, roomId, bleUuid, now, ZeroUser, ZeroRoom);
      && r.db.bookings == db.bookings + [added]
      && r.db == db.(bookings := r.db.bookings, nextBookingId := db.nextBookingId + 1)
  {
    match FindRoomById(db, roomId)
    case Err(_) => Changed(db, Some(RoomNotFound))
    case Ok(_) =>
      match ExistsByUserAndRoom(db, userId, roomId)
      case Err(cause) => Changed(db, Some(StoreFailed(cause)))
      case Ok(exists_) =>
        if exists_ then Changed(db, Some(AlreadyBooked))
        else match CreateBooking(db, NewBooking(userId, roomId, bleUuid), now)
          case Err(cause) => Changed(db, Some(StoreFailed(cause)))
          case Ok(created) => Changed(created.db, None)
  }

  /** `GetUserRooms`: the user's bookings with their rooms. */
  function GetUserRooms(db: Db, userId: nat): (r: Result<seq<UserRoom>, DbError>)
    ensures db.online <==> r.Ok?
    ensures r.Ok? ==> |r.value| == |BookingsOfUser(db.bookings, userId)|
    ensures r.Ok? ==> forall i :: 0 <= i < |r.value| ==>
      && r.value[i] == PreloadRoom(db, BookingsOfUser(db.bookings, userId)[i])
      && r.value[i].userId == userId && r.value[i].room == PreloadRoom(db, r.value[i]).room
  {
    FindByUserId(db, userId)
  }

  /** `GetAllRooms`. */
  function GetAllRooms(db: Db): (r: Result<seq<Room>, DbError>)
    ensures db.online ==> r == Ok(db.rooms)
    ensures !db.online ==> r == Err(Unavailable)
  {
    FindAllRooms(db)
  }

  /** `CancelBooking`: deletes the booking by its ID alone. The user ID is
      accepted but never consulted, so a user can cancel anybody's booking;
      an ID that matches nothing is not an error. */
  function CancelBooking(db: Db, userId: nat, bookingId: nat): (r: Changed)
    ensures r.error.None? <==> db.online
    ensures r.error.Some? ==> r.db == db
    ensures r.error.None? ==>
      && r.db == db.(bookings := r.db.bookings)
      && forall b :: b in r.db.bookings <==> b in db.bookings && b.id != bookingId
  {
    match DeleteBooking(db, bookingId)
    case Err(cause) => Changed(db, Some(StoreFailed(cause)))
    case Ok(db') => Changed(db', None)
  }

  /** Ownership is not checked: who asks makes no difference, and a
      booking held by another user is removed. */
  lemma CancelIgnoresOwner(db: Db, userId: nat, other: UserRoom)
    requires db.online && other in db.bookings && other.userId != userId
    ensures CancelBooking(db, userId, other.id) == CancelBooking(db, other.userId, other.id)
    ensures other !in CancelBooking(db, userId, other.id).db.bookings
  {
  }

  // ---------------------------------------------------------------------
  // BLE UUIDs of a room
  // ---------------------------------------------------------------------

  /** The non-empty BLE UUIDs of some bookings, in order. */
  function NonEmptyUuids(bs: seq<UserRoom>): (r: seq<string>)
    ensures |r| <= |bs|
  {
    if |bs| == 0 then []
    else
      var last := bs[|bs| - 1];
      NonEmptyUuids(bs[..|bs| - 1]) + (if last.bleUuid != "" then [last.bleUuid] else [])
  }

  /** What `NonEmptyUuids` contains: exactly the non-empty UUIDs of the
      bookings. */
  lemma {:induction false} NonEmptyUuidsContent(bs: seq<UserRoom>, u: string)
    ensures u in NonEmptyUuids(bs) <==> u != "" && exists i :: 0 <= i < |bs| && bs[i].bleUuid == u
  {
    if |bs| > 0 {
      var init := bs[..|bs| - 1];
      NonEmptyUuidsContent(init, u);
      if exists i :: 0 <= i < |init| && init[i].bleUuid == u {
        var i :| 0 <= i < |init| && init[i].bleUuid == u;
        assert bs[i].bleUuid == u;
      }
      if exists i :: 0 <= i < |bs| && bs[i].bleUuid == u {
        var i :| 0 <= i < |bs| && bs[i].bleUuid == u;
        if i < |init| { assert init[i].bleUuid == u; }
      }
    }
  }

  /** Extending the prefix by one booking appends its UUID when it has one. */
  lemma NonEmptyUuidsSnoc(bs: seq<UserRoom>, i: nat)
    requires i < |bs|
    ensures NonEmptyUuids(bs[..i + 1]) ==
      NonEmptyUuids(bs[..i]) + (if bs[i].bleUuid != "" then [bs[i].bleUuid] else [])
  {
    assert bs[..i + 1][..i] == bs[..i];
  }

  /** Preloading the user does not touch the UUID. */
  lemma PreloadKeepsUuid(db: Db, b: UserRoom)
    ensures PreloadUser(db, b).bleUuid == b.bleUuid && PreloadUser(db, b).roomId == b.roomId
  {
  }

  /** `GetBleUuidByRoomID`: the loop over the room's bookings that keeps the
      non-empty UUIDs. */
  method GetBleUuidByRoomId(db: Db, roomId: nat) returns (r: Result<seq<string>, DbError>)
    ensures !db.online ==> r == Err(Unavailable)
    ensures db.online ==> r == Ok(NonEmptyUuids(BookingsOfRoom(db.bookings, roomId)))
  {
    var found := FindByRoomId(db, roomId);
    if found.Err? {
      return Err(found.error);
    }
    var userRooms := found.value;
    ghost var bookings := BookingsOfRoom(db.bookings, roomId);
    assert |userRooms| == |bookings|;
    var uuids: seq<string> := [];
    var i := 0;
    while i < |userRooms|
      invariant 0 <= i <= |userRooms|
      invariant uuids == NonEmptyUuids(bookings[..i])
    {
      assert userRooms[i] == PreloadUser(db, bookings[i]);
      PreloadKeepsUuid(db, bookings[i]);
      NonEmptyUuidsSnoc(bookings, i);
      if userRooms[i].bleUuid != "" {
        uuids := uuids + [userRooms[i].bleUuid];
      }
      i := i + 1;
    }
    assert bookings[..i] == bookings;
    return Ok(uuids);
  }

  /** The UUIDs a room lists are exactly the non-empty UUIDs of its
      bookings. */
  lemma RoomUuidsAreItsBookings(db: Db, roomId: nat, u: string)
    ensures u in NonEmptyUuids(BookingsOfRoom(db.bookings, roomId)) <==>
      u != "" && exists b :: b in db.bookings && b.roomId == roomId && b.bleUuid == u
  {
    var bs := BookingsOfRoom(db.bookings, roomId);
    NonEmptyUuidsContent(bs, u);
    if exists b :: b in db.bookings && b.roomId == roomId && b.bleUuid == u {
      var b :| b in db.bookings && b.roomId == roomId && b.bleUuid == u;
      assert b in bs;
      var i :| 0 <= i < |bs| && bs[i] == b;
      assert bs[i].bleUuid == u;
    }
  }

  // ---------------------------------------------------------------------
  // Keys of a user's rooms
  // ---------------------------------------------------------------------

  /** One entry of `GetRoomKeysForUser`'s result. */
  datatype KeyEntry = KeyEntry(roomId: nat, roomName: string, publicKey: string, bookingId: nat)

  /** The loop of `GetRoomKeysForUser`: a booking whose room cannot be found
      or whose key cannot be fetched is skipped. */
  function CollectKeys(db: Db, bs: seq<UserRoom>, fetchKey: string -> Option<string>): (r: seq<KeyEntry>)
    requires db.online
    ensures |r| <= |bs|
    ensures forall k :: 0 <= k < |r| ==> exists i :: 0 <= i < |bs| && KeyOf(db, bs[i], fetchKey) == Some(r[k])
    ensures forall i :: 0 <= i < |bs| && KeyOf(db, bs[i], fetchKey).Some? ==> KeyOf(db, bs[i], fetchKey).value in r
  {
    if |bs| == 0 then []
    else
      var init := bs[..|bs| - 1];
      var rest := CollectKeys(db, init, fetchKey);
      assert forall k :: 0 <= k < |rest| ==> exists i :: 0 <= i < |bs| && KeyOf(db, bs[i], fetchKey) == Some(rest[k]) by {
        forall k | 0 <= k < |rest|
          ensures exists i :: 0 <= i < |bs| && KeyOf(db, bs[i], fetchKey) == Some(rest[k])
        {
          var i :| 0 <= i < |init| && KeyOf(db, init[i], fetchKey) == Some(rest[k]);
          assert bs[i] == init[i];
        }
      }
      assert forall i :: 0 <= i < |init| ==> bs[i] == init[i];
      match KeyOf(db, bs[|bs| - 1], fetchKey)
      case None => rest
      case Some(entry) => rest + [entry]
  }

  /** The entry for one booking, if its room exists and the key server
      answers for the room's name. */
  function KeyOf(db: Db, b: UserRoom, fetchKey: string -> Option<string>): (r: Option<KeyEntry>)
    requires db.online
    ensures r.Some? <==> RoomExists(db, b.roomId) && fetchKey(FindRoomById(db, b.roomId).value.roomName).Some?
    ensures r.Some? ==> r.value.roomId == b.roomId && r.value.bookingId == b.id
  {
    match FindRoomById(db, b.roomId)
    case Err(_) => None
    case Ok(room) =>
      match fetchKey(room.roomName)
      case None => None
      case Some(key) => Some(KeyEntry(room.id, room.roomName, key, b.id))
  }

  /** `GetRoomKeysForUser`: an error when the user has no bookings, and an
      error when not a single key could be fetched. */
  function GetRoomKeysForUser(db: Db, userId: nat, fetchKey: string -> Option<string>): (r: Result<seq<KeyEntry>, RoomError>)
    ensures !db.online ==> r == Err(StoreFailed(Unavailable))
    ensures db.online && |BookingsOfUser(db.bookings, userId)| == 0 ==> r == Err(NoBookings)
    ensures r.Ok? ==> 0 < |r.value| <= |BookingsOfUser(db.bookings, userId)|
    // every entry is the key one of the user's bookings yields
    ensures r.Ok? ==> (db.online &&
      forall e :: e in r.value ==>
        exists b :: b in BookingsOfUser(db.bookings, userId) && KeyOf(db, b, fetchKey) == Some(e))
    ensures r.Err? ==> r.error in {StoreFailed(Unavailable), NoBookings, KeysUnavailable}
    // the key-server error comes exactly when no booking yields a key
    ensures db.online && |BookingsOfUser(db.bookings, userId)| > 0 ==>
      (r == Err(KeysUnavailable) <==>
         forall b :: b in BookingsOfUser(db.bookings, userId) ==> KeyOf(db, b, fetchKey).None?)
    // otherwise every booking that yields a key is represented
    ensures r.Ok? ==> (db.online &&
      forall b :: b in BookingsOfUser(db.bookings, userId) && KeyOf(db, b, fetchKey).Some? ==>
        KeyOf(db, b, fetchKey).value in r.value)
    // in booking order, one entry per booking that yields a key
    ensures r.Ok? ==> (db.online &&
      r.value == CollectKeys(db, BookingsOfUser(db.bookings, userId), fetchKey) &&
      |r.value| == KeyCount(db, BookingsOfUser(db.bookings, userId), fetchKey))
  {
    match FindByUserId(db, userId)
    case Err(cause) => Err(StoreFailed(cause))
    case Ok(userRooms) =>
      var bs := BookingsOfUser(db.bookings, userId);
      if |userRooms| == 0 then Err(NoBookings)
      else
        var keys := CollectKeys(db, bs, fetchKey);
        KeysOfBookings(db, bs, fetchKey);
        CollectKeysCount(db, bs, fetchKey);
        if |keys| == 0 then Err(KeysUnavailable) else Ok(keys)
  }

  /** What `CollectKeys` gathers, by membership: an entry for each booking
      that yields one and nothing else, so it is empty exactly when no
      booking yields a key. */
  lemma KeysOfBookings(db: Db, bs: seq<UserRoom>, fetchKey: string -> Option<string>)
    requires db.online
    ensures forall e :: e in CollectKeys(db, bs, fetchKey) ==> exists b :: b in bs && KeyOf(db, b, fetchKey) == Some(e)
    ensures forall b :: b in bs && KeyOf(db, b, fetchKey).Some? ==> KeyOf(db, b, fetchKey).value in CollectKeys(db, bs, fetchKey)
    ensures |CollectKeys(db, bs, fetchKey)| == 0 <==> forall b :: b in bs ==> KeyOf(db, b, fetchKey).None?
  {
    var keys := CollectKeys(db, bs, fetchKey);
    forall e | e in keys
      ensures exists b :: b in bs && KeyOf(db, b, fetchKey) == Some(e)
    {
      var k :| 0 <= k < |keys| && keys[k] == e;
      var i :| 0 <= i < |bs| && KeyOf(db, bs[i], fetchKey) == Some(keys[k]);
      assert bs[i] in bs;
    }
    forall b | b in bs && KeyOf(db, b, fetchKey).Some?
      ensures KeyOf(db, b, fetchKey).value in keys
    {
      var i :| 0 <= i < |bs| && bs[i] == b;
    }
    if |keys| > 0 {
      assert keys[0] in keys;
    }
  }

  /** The number of bookings that yield a key entry, counted from the
      front. */
  function KeyCount(db: Db, bs: seq<UserRoom>, fetchKey: string -> Option<string>): nat
    requires db.online
  {
    if |bs| == 0 then 0
    else (if KeyOf(db, bs[0], fetchKey).Some? then 1 else 0) + KeyCount(db, bs[1..], fetchKey)
  }

  /** The loop keeps booking order: one booking contributes its own entry
      or nothing, and the entries of consecutive runs of bookings are
      concatenated. */
  lemma {:induction false} CollectKeysAppend(db: Db, s: seq<UserRoom>, t: seq<UserRoom>, fetchKey: string -> Option<string>)
    requires db.online
    ensures |s| == 1 ==>
      CollectKeys(db, s, fetchKey) == (if KeyOf(db, s[0], fetchKey).Some? then [KeyOf(db, s[0], fetchKey).value] else [])
    ensures CollectKeys(db, s + t, fetchKey) == CollectKeys(db, s, fetchKey) + CollectKeys(db, t, fetchKey)
    decreases |t|
  {
    if |s| == 1 {
      assert s[..0] == [];
    }
    if |t| == 0 {
      assert s + t == s;
    } else {
      var t' := t[..|t| - 1];
      assert (s + t)[..|s + t| - 1] == s + t';
      assert (s + t)[|s + t| - 1] == t[|t| - 1];
      CollectKeysAppend(db, s, t', fetchKey);
    }
  }

  /** One entry per booking that yields a key: the loop neither drops nor
      repeats entries. */
  lemma {:induction false} CollectKeysCount(db: Db, bs: seq<UserRoom>, fetchKey: string -> Option<string>)
    requires db.online
    ensures |CollectKeys(db, bs, fetchKey)| == KeyCount(db, bs, fetchKey)
    decreases |bs|
  {
    if |bs| > 0 {
      CollectKeysAppend(db, [bs[0]], bs[1..], fetchKey);
      assert [bs[0]] + bs[1..] == bs;
      CollectKeysCount(db, bs[1..], fetchKey);
    }
  }

  /** When the key server answers for no room, a user with bookings gets
      the key-server error. */
  lemma {:induction false} KeyServerDownFails(db: Db, userId: nat, fetchKey: string -> Option<string>)
    requires db.online && |BookingsOfUser(db.bookings, userId)| > 0
    requires forall name :: fetchKey(name).None?
    ensures GetRoomKeysForUser(db, userId, fetchKey) == Err(KeysUnavailable)
  {
    NoKeysCollected(db, BookingsOfUser(db.bookings, userId), fetchKey);
  }

  lemma {:induction false} NoKeysCollected(db: Db, bs: seq<UserRoom>, fetchKey: string -> Option<string>)
    requires db.online
    requires forall name :: fetchKey(name).None?
    ensures CollectKeys(db, bs, fetchKey) == []
    decreases |bs|
  {
    if |bs| > 0 {
      NoKeysCollected(db, bs[..|bs| - 1], fetchKey);
    }
  }

  // ---------------------------------------------------------------------
  // The no-duplicate-booking invariant
  // ---------------------------------------------------------------------

  /** No two bookings share a (user, room) pair. */
  predicate NoDuplicateBookings(bookings: seq<UserRoom>) {
    forall i, j :: 0 <= i < j < |bookings| ==>
      bookings[i].userId != bookings[j].userId || bookings[i].roomId != bookings[j].roomId
  }

  lemma BookRoomKeepsNoDuplicates(db: Db, userId: nat, roomId: nat, bleUuid: NonEmptyString, now: Instant)
    requires NoDuplicateBookings(db.bookings)
    ensures NoDuplicateBookings(BookRoom(db, userId, roomId, bleUuid, now).db.bookings)
  {
    var r := BookRoom(db, userId, roomId, bleUuid, now);
    if r.error.None? {
      var bs := r.db.bookings;
      forall i, j | 0 <= i < j < |bs|
        ensures bs[i].userId != bs[j].userId || bs[i].roomId != bs[j].roomId
      {
        if j == |db.bookings| {
          assert bs[i] in db.bookings;
        }
      }
    }
  }

  lemma NoDuplicatesTail(bs: seq<UserRoom>)
    requires |bs| > 0 && NoDuplicateBookings(bs)
    ensures NoDuplicateBookings(bs[1..])
  {
    var tail := bs[1..];
    forall i, j | 0 <= i < j < |tail|
      ensures tail[i].userId != tail[j].userId || tail[i].roomId != tail[j].roomId
    {
      assert tail[i] == bs[i + 1] && tail[j] == bs[j + 1];
    }
  }

  /** A booking whose pair no later booking shares can go in front. */
  lemma NoDuplicatesCons(h: UserRoom, t: seq<UserRoom>)
    requires NoDuplicateBookings(t)
    requires forall b :: b in t ==> b.userId != h.userId || b.roomId != h.roomId
    ensures NoDuplicateBookings([h] + t)
  {
    var r := [h] + t;
    forall i, j | 0 <= i < j < |r|
      ensures r[i].userId != r[j].userId || r[i].roomId != r[j].roomId
    {
      if i == 0 {
        assert r[j] == t[j - 1];
        assert r[j] in t;
      } else {
        assert r[i] == t[i - 1] && r[j] == t[j - 1];
      }
    }
  }

  /** Removing the bookings that fail a test keeps the invariant. */
  lemma {:induction false} FilterKeepsNoDuplicates(bs: seq<UserRoom>, p: UserRoom -> bool)
    requires NoDuplicateBookings(bs)
    ensures NoDuplicateBookings(Filter(bs, p))
    decreases |bs|
  {
    if |bs| > 0 {
      var tail := bs[1..];
      NoDuplicatesTail(bs);
      FilterKeepsNoDuplicates(tail, p);
      var rest := Filter(tail, p);
      if p(bs[0]) {
        assert Filter(bs, p) == [bs[0]] + rest;
        forall b | b in rest
          ensures b.userId != bs[0].userId || b.roomId != bs[0].roomId
        {
          var k :| 0 <= k < |tail| && tail[k] == b;
          assert bs[k + 1] == b;
        }
        NoDuplicatesCons(bs[0], rest);
      } else {
        assert Filter(bs, p) == rest;
      }
    }
  }

  lemma CancelBookingKeepsNoDuplicates(db: Db, userId: nat, bookingId: nat)
    requires NoDuplicateBookings(db.bookings)
    ensures NoDuplicateBookings(CancelBooking(db, userId, bookingId).db.bookings)
  {
    FilterKeepsNoDuplicates(db.bookings, (b: UserRoom) => b.id != bookingId);
  }

  /** The commands that change bookings. */
  datatype RoomCommand =
    | Book(userId: nat, roomId: nat, bleUuid: NonEmptyString, now: Instant)
    | Cancel(userId: nat, bookingId: nat)

  function Apply(db: Db, c: RoomCommand): Db
  {
    match c
    case Book(userId, roomId, bleUuid, now) => BookRoom(db, userId, roomId, bleUuid, now).db
    case Cancel(userId, bookingId) => CancelBooking(db, userId, bookingId).db
  }

  function ApplyAll(db: Db, cs: seq<RoomCommand>): Db
    decreases |cs|
  {
    if |cs| == 0 then db else ApplyAll(Apply(db, cs[0]), cs[1..])
  }

  /** Under any sequence of bookings and cancellations, starting from a
      repository without duplicates, no (user, room) pair is booked twice. */
  lemma {:induction false} NoDuplicatesUnderAnyCommands(db: Db, cs: seq<RoomCommand>)
    requires NoDuplicateBookings(db.bookings)
    ensures NoDuplicateBookings(ApplyAll(db, cs).bookings)
    decreases |cs|
  {
    if |cs| > 0 {
      match cs[0] {
        case Book(userId, roomId, bleUuid, now) => BookRoomKeepsNoDuplicates(db, userId, roomId, bleUuid, now);
        case Cancel(userId, bookingId) => CancelBookingKeepsNoDuplicates(db, userId, bookingId);
      }
      NoDuplicatesUnderAnyCommands(Apply(db, cs[0]), cs[1..]);
    }
  }
}

=== FILE: smart_key_app.dfy ===
/** The firmware's application object (src/smart_key_app.cpp): the start-up
    choice of the BLE service UUID and the main loop's connection edge
    detection and periodic "ping" notifications.

    `millis()` is a parameter: the loop takes the current 32-bit millisecond
    counter as `now`. The function-local statics of `run`
    (`oldDeviceConnected`, `lastNotifyTime`, `notifyCounter`) are the fields
    of `LoopState`. */
module SmartKeyApp {
  import opened Common
  import opened Text
  import Rgb = RgbController
  import Ble = BleConnection
  import Uuids = UuidStore

  // ---------------------------------------------------------------------
  // The main loop
  // ---------------------------------------------------------------------

  const NotifyIntervalMs: nat := 2000
  const Wrap: nat := 0x1_0000_0000

  datatype LoopState = LoopState(oldConnected: bool, lastNotifyTime: uint32, counter: uint32)

  /** The statics' initial values. */
  const LoopStart := LoopState(false, 0, 0)

  /** `millis() - lastNotifyTime` in 32-bit unsigned arithmetic: the time
      since the last notification, correct across one wrap of the counter. */
  function Elapsed(now: uint32, last: uint32): (d: uint32)
    ensures now >= last ==> d == now - last
    ensures now < last ==> d == now + Wrap - last
  {
    (now - last) % Wrap
  }

  /** The text `snprintf("ping %lu", counter)` produces. */
  function PingMessage(counter: uint32): string
  {
    "ping " + Decimal(counter)
  }

  /** What one `run` call does besides updating its statics. */
  datatype RunOutput = RunOutput(restartAdvertising: bool, ping: Option<string>)

  datatype Tick = Tick(state: LoopState, out: RunOutput)

  /** One `run` call, given the manager's connected flag and `millis()`. */
  function Run(s: LoopState, connected: bool, now: uint32): (t: Tick)
    // advertising restarts exactly on a connected -> disconnected edge
    ensures t.out.restartAdvertising <==> s.oldConnected && !connected
    ensures t.state.oldConnected == connected
    // a ping goes out only while connected and more than 2 s after the last
    ensures t.out.ping.Some? <==> connected && Elapsed(now, s.lastNotifyTime) > NotifyIntervalMs
    ensures t.out.ping.Some? ==>
      && t.out.ping.value == PingMessage(s.counter)
      && t.state.counter == (s.counter + 1) % Wrap
      && t.state.lastNotifyTime == now
    ensures t.out.ping.None? ==>
      t.state.counter == s.counter && t.state.lastNotifyTime == s.lastNotifyTime
  {
    var restart := !connected && s.oldConnected;
    if connected && Elapsed(now, s.lastNotifyTime) > NotifyIntervalMs then
      Tick(LoopState(connected, now, (s.counter + 1) % Wrap),
           RunOutput(restart, Some(PingMessage(s.counter))))
    else
      Tick(s.(oldConnected := connected), RunOutput(restart, None))
  }

  /** One loop iteration's inputs. */
  datatype Sample = Sample(connected: bool, now: uint32)

  function RunAll(s: LoopState, samples: seq<Sample>): LoopState
    decreases |samples|
  {
    if |samples| == 0 then s
    else RunAll(Run(s, samples[0].connected, samples[0].now).state, samples[1..])
  }

  /** The counter values of the pings a run of the loop emits, in order. */
  function PingCounters(s: LoopState, samples: seq<Sample>): seq<uint32>
    decreases |samples|
  {
    if |samples| == 0 then []
    else
      var t := Run(s, samples[0].connected, samples[0].now);
      (if t.out.ping.Some? then [s.counter] else []) + PingCounters(t.state, samples[1..])
  }

  /** The notifications a run of the loop emits, in order. */
  function Pings(s: LoopState, samples: seq<Sample>): seq<string>
    decreases |samples|
  {
    if |samples| == 0 then []
    else
      var t := Run(s, samples[0].connected, samples[0].now);
      (if t.out.ping.Some? then [t.out.ping.value] else []) + Pings(t.state, samples[1..])
  }

  /** The restart decisions of a run of the loop, one per iteration. */
  function Restarts(s: LoopState, samples: seq<Sample>): (r: seq<bool>)
    ensures |r| == |samples|
    decreases |samples|
  {
    if |samples| == 0 then []
    else
      var t := Run(s, samples[0].connected, samples[0].now);
      [t.out.restartAdvertising] + Restarts(t.state, samples[1..])
  }

  /** Each emitted notification is the ping message of its counter value. */
  lemma {:induction false} PingsCarryCounters(s: LoopState, samples: seq<Sample>)
    ensures |Pings(s, samples)| == |PingCounters(s, samples)|
    ensures forall k :: 0 <= k < |Pings(s, samples)| ==>
      Pings(s, samples)[k] == PingMessage(PingCounters(s, samples)[k])
    decreases |samples|
  {
    if |samples| > 0 {
      var t := Run(s, samples[0].connected, samples[0].now);
      PingsCarryCounters(t.state, samples[1..]);
    }
  }

  /** The counters of successive pings count on from the counter the run
      started with, one per notification sent, wrapping at 2^32; the counter
      ends advanced by the number of pings. */
  lemma {:induction false} PingCountersCountUp(s: LoopState, samples: seq<Sample>)
    ensures var p := PingCounters(s, samples);
      && (forall k :: 0 <= k < |p| ==> p[k] == (s.counter + k) % Wrap)
      && RunAll(s, samples).counter == (s.counter + |p|) % Wrap
    decreases |samples|
  {
    if |samples| > 0 {
      var t := Run(s, samples[0].connected, samples[0].now);
      PingCountersCountUp(t.state, samples[1..]);
      var rest := PingCounters(t.state, samples[1..]);
      var p := PingCounters(s, samples);
      if t.out.ping.Some? {
        assert p == [s.counter] + rest;
        forall k | 0 <= k < |p|
          ensures p[k] == (s.counter + k) % Wrap
        {
          if k > 0 {
            assert p[k] == rest[k - 1];
            WrapShift(s.counter, k - 1);
          }
        }
        WrapShift(s.counter, |rest|);
      } else {
        assert p == rest;
      }
    }
  }

  /** Counting on from an incremented counter. */
  lemma WrapShift(c: uint32, k: nat)
    ensures ((c + 1) % Wrap + k) % Wrap == (c + (k + 1)) % Wrap
  {
  }

  /** From power-on the loop sends "ping 0", "ping 1", ... in order. */
  lemma PingsFromStart(samples: seq<Sample>, k: nat)
    requires k < |Pings(LoopStart, samples)|
    requires k < Wrap
    ensures Pings(LoopStart, samples)[k] == "ping " + Decimal(k)
  {
    PingsCarryCounters(LoopStart, samples);
    PingCountersCountUp(LoopStart, samples);
    var c := PingCounters(LoopStart, samples)[k];
    assert c == k;
    assert Pings(LoopStart, samples)[k] == PingMessage(c);
  }

  /** While disconnected the loop sends nothing and its notification state
      stays put. */
  lemma {:induction false} DisconnectedIsQuiet(s: LoopState, samples: seq<Sample>)
    requires forall i :: 0 <= i < |samples| ==> !samples[i].connected
    ensures Pings(s, samples) == []
    ensures RunAll(s, samples).counter == s.counter
    ensures RunAll(s, samples).lastNotifyTime == s.lastNotifyTime
    decreases |samples|
  {
    if |samples| > 0 {
      DisconnectedIsQuiet(Run(s, samples[0].connected, samples[0].now).state, samples[1..]);
    }
  }

  /** The connected flag the loop compares against at iteration `i`: the
      one read at the previous iteration, or the remembered one at first. */
  function PreviousConnected(s: LoopState, samples: seq<Sample>, i: nat): bool
    requires i < |samples|
  {
    if i == 0 then s.oldConnected else samples[i - 1].connected
  }

  /** Iteration `i` restarts advertising exactly when the connected flag it
      reads is false and the previous one was true. */
  lemma {:induction false} RestartAt(s: LoopState, samples: seq<Sample>, i: nat)
    requires i < |samples|
    ensures Restarts(s, samples)[i] <==> !samples[i].connected && PreviousConnected(s, samples, i)
    decreases i
  {
    var t := Run(s, samples[0].connected, samples[0].now);
    if i > 0 {
      RestartAt(t.state, samples[1..], i - 1);
      assert samples[1..][i - 1] == samples[i];
      if i > 1 {
        assert samples[1..][i - 2] == samples[i - 1];
      }
    }
  }

  /** Advertising restarts exactly on the falling edges of the connected
      flag, and the loop ends remembering the last flag it read. */
  lemma {:induction false} RestartsAtFallingEdges(s: LoopState, samples: seq<Sample>)
    ensures forall i :: 0 <= i < |samples| ==>
      (Restarts(s, samples)[i] <==> !samples[i].connected && PreviousConnected(s, samples, i))
    ensures |samples| > 0 ==> RunAll(s, samples).oldConnected == samples[|samples| - 1].connected
    decreases |samples|
  {
    forall i | 0 <= i < |samples|
      ensures Restarts(s, samples)[i] <==> !samples[i].connected && PreviousConnected(s, samples, i)
    {
      RestartAt(s, samples, i);
    }
    if |samples| > 0 {
      var t := Run(s, samples[0].connected, samples[0].now);
      RestartsAtFallingEdges(t.state, samples[1..]);
      if |samples| > 1 {
        assert samples[1..][|samples| - 2] == samples[|samples| - 1];
      }
    }
  }

  // ---------------------------------------------------------------------
  // Start-up: choosing the service UUID
  // ---------------------------------------------------------------------

  /** What `begin` leaves behind, apart from display and network set-up. */
  datatype Boot = Boot(
    uuids: seq<string>,     // the UUID manager's list
    flash: Uuids.Flash,
    loadAttempted: bool,    // whether the cached file was consulted
    peripheral: Ble.Peripheral,
    bleStarted: bool)       // whether BLE was initialised and advertised

  /** `begin`: the RGB buffer is initialised, the UUIDs are fetched, the
      flash cache is read only if the fetch failed, and BLE starts with the
      first UUID only if the list is non-empty. */
  function Begin(numLeds: uint8, flash: Uuids.Flash, response: Uuids.UuidResponse): (b: Boot)
    ensures var f := Uuids.FetchAndSaveUuids([], flash, response);
      && (b.loadAttempted <==> !f.ok)
      && (f.ok ==> b.uuids == f.uuids && b.flash == f.flash)
      && (!f.ok ==> b.uuids == Uuids.LoadUuids(f.uuids, f.flash).uuids && b.flash == f.flash)
    ensures b.bleStarted <==> |b.uuids| > 0
    ensures b.bleStarted ==>
      && b.peripheral.manager.serviceUuid == b.uuids[0]
      && b.peripheral.manager.rgbAttached
      && !b.peripheral.manager.connected
      && b.peripheral.manager.characteristic.Some?
    ensures !b.bleStarted ==> b.peripheral.manager == Ble.Fresh
    ensures b.peripheral.strip == Rgb.Filled(numLeds, Rgb.Black)
  {
    var strip := Rgb.Filled(numLeds, Rgb.Black);
    var fetched := Uuids.FetchAndSaveUuids([], flash, response);
    var uuids := if fetched.ok then fetched.uuids else Uuids.LoadUuids(fetched.uuids, fetched.flash).uuids;
    if |uuids| > 0 then
      var m := Ble.SetRgbController(Ble.Init(Ble.Fresh, uuids[0]));
      Boot(uuids, fetched.flash, !fetched.ok, Ble.Peripheral(m, strip), true)
    else
      Boot(uuids, fetched.flash, !fetched.ok, Ble.Peripheral(Ble.Fresh, strip), false)
  }

  /** A fetch whose UUIDs could not be cached still starts BLE with the
      fetched first UUID when no cache file exists: the failed save reports
      failure, the load finds no file and leaves the fetched list in place. */
  lemma UnsavedFetchStillStarts(numLeds: uint8, flash: Uuids.Flash, list: seq<string>)
    requires |list| > 0 && !flash.canWrite && flash.file.None?
    ensures var b := Begin(numLeds, flash, Uuids.UuidResponse(200, Uuids.Document(Some(list))));
      b.loadAttempted && b.bleStarted && b.peripheral.manager.serviceUuid == list[0]
  {
  }

  /** But when an older cache file is readable, a failed save lets its stale
      content replace the freshly fetched list. */
  lemma UnsavedFetchYieldsToOldCache(numLeds: uint8, flash: Uuids.Flash, list: seq<string>)
    requires |list| > 0 && !flash.canWrite && flash.file.Some? && flash.canRead
    ensures var b := Begin(numLeds, flash, Uuids.UuidResponse(200, Uuids.Document(Some(list))));
      b.uuids == Uuids.ParseUuids(flash.file.value)
  {
  }

  /** With no reachable backend and no cache, BLE is skipped. */
  lemma NothingAvailableSkipsBle(numLeds: uint8, flash: Uuids.Flash, response: Uuids.UuidResponse)
    requires response.code != 200 && flash.file.None?
    ensures !Begin(numLeds, flash, response).bleStarted
  {
  }

  // ---------------------------------------------------------------------
  // The device: the loop driving the peripheral
  // ---------------------------------------------------------------------

  datatype Device = Device(peripheral: Ble.Peripheral, loop: LoopState)

  datatype Polled = Polled(device: Device, restartAdvertising: bool, notified: bool)

  /** One `run` call against the live manager: the connected flag is read
      from it and a ping is handed to `sendNotification`. */
  function Poll(d: Device, now: uint32): (p: Polled)
    ensures p.device.peripheral.strip == d.peripheral.strip
    ensures p.device.peripheral.manager.connected == d.peripheral.manager.connected
    ensures p.notified ==>
      p.device.peripheral.manager.characteristic == Some(PingMessage(d.loop.counter))
    ensures !p.notified ==> p.device.peripheral.manager == d.peripheral.manager
  {
    var m := d.peripheral.manager;
    var t := Run(d.loop, Ble.IsConnected(m), now);
    match t.out.ping
    case None => Polled(Device(d.peripheral, t.state), t.out.restartAdvertising, false)
    case Some(msg) =>
      var n := Ble.SendNotification(m, msg);
      Polled(Device(d.peripheral.(manager := n.manager), t.state), t.out.restartAdvertising, n.sent)
  }

  /** Once BLE is initialised, every ping the loop decides on reaches the
      characteristic: the loop only pings while connected, and the
      characteristic exists from `init` on. */
  lemma PingsAreDelivered(d: Device, now: uint32)
    requires d.peripheral.manager.characteristic.Some?
    ensures var p := Poll(d, now);
      p.notified <==> Run(d.loop, d.peripheral.manager.connected, now).out.ping.Some?
  {
  }
}

=== FILE: text.dfy ===
/** Character-level string operations the firmware and the backend rely on:
    Arduino's `String::trim`, Go's `strings.Split`, decimal rendering of an
    unsigned counter (`snprintf("%lu")`), Go's `strconv.ParseUint(s, 10, 32)`
    and Go's byte length `len(s)` of a UTF-8 string. */
module Text {
  import opened Common

  // ---------------------------------------------------------------------
  // Whitespace and trimming (Arduino String::trim)
  // ---------------------------------------------------------------------

  /** C `isspace` in the default locale. */
  predicate IsSpace(c: char) {
    c == ' ' || c == '\t' || c == '\n' || c == '\U{000B}' || c == '\U{000C}' || c == '\r'
  }

  /** The first position at or after `i` that does not hold whitespace
      (`|s|` when there is none): where trimming the front stops. */
  function SkipSpaces(s: string, i: nat): (j: nat)
    requires i <= |s|
    ensures i <= j <= |s|
    ensures forall k :: i <= k < j ==> IsSpace(s[k])
    ensures j < |s| ==> !IsSpace(s[j])
    decreases |s| - i
  {
    if i < |s| && IsSpace(s[i]) then SkipSpaces(s, i + 1) else i
  }

  /** The end of the text before position `j` once trailing whitespace is
      dropped: where trimming the back stops. */
  function SkipSpacesBack(s: string, j: nat): (k: nat)
    requires j <= |s|
    ensures k <= j
    ensures forall m :: k <= m < j ==> IsSpace(s[m])
    ensures k > 0 ==> !IsSpace(s[k - 1])
  {
    if j > 0 && IsSpace(s[j - 1]) then SkipSpacesBack(s, j - 1) else j
  }

  /** Arduino `String::trim`: the string without surrounding whitespace. */
  function Trim(s: string): (r: string)
    ensures var a := SkipSpaces(s, 0);
      && a + |r| <= |s| && r == s[a..a + |r|]
      && (forall i :: 0 <= i < a ==> IsSpace(s[i]))
      && (forall i :: a + |r| <= i < |s| ==> IsSpace(s[i]))
    ensures |r| > 0 ==> !IsSpace(r[0]) && !IsSpace(r[|r| - 1])
    ensures (forall i :: 0 <= i < |s| ==> IsSpace(s[i])) <==> r == ""
  {
    var a := SkipSpaces(s, 0);
    var b := SkipSpacesBack(s, |s|);
    if a < |s| then
      assert !IsSpace(s[a]);
      s[a..b]
    else ""
  }

  /** A string Trim leaves as it is: empty, or bounded by non-space characters. */
  predicate Trimmed(s: string) {
    |s| == 0 || (!IsSpace(s[0]) && !IsSpace(s[|s| - 1]))
  }

  lemma TrimIdentity(s: string)
    ensures Trim(s) == s <==> Trimmed(s)
  {
  }

  /** Trailing whitespace after a trimmed, non-empty string is cut off again. */
  lemma TrimDropsSpaceSuffix(s: string, c: char)
    requires |s| > 0 && Trimmed(s) && IsSpace(c)
    ensures Trim(s + [c]) == s
  {
    var t := s + [c];
    assert SkipSpaces(t, 0) == 0;
    assert SkipSpacesBack(t, |s|) == |s|;
    assert t[0..|s|] == s;
  }

  // ---------------------------------------------------------------------
  // Splitting and joining on one separator character (Go strings.Split)
  // ---------------------------------------------------------------------

  /** Position of the first occurrence of `c` in `s`. */
  function IndexOf(s: string, c: char): (i: nat)
    requires c in s
    ensures i < |s| && s[i] == c
    ensures forall k :: 0 <= k < i ==> s[k] != c
  {
    if s[0] == c then 0 else IndexOf(s[1..], c) + 1
  }

  /** The parts glued back together with one separator between neighbours. */
  function Join(parts: seq<string>, sep: char): string
  {
    if |parts| == 0 then ""
    else if |parts| == 1 then parts[0]
    else parts[0] + [sep] + Join(parts[1..], sep)
  }

  /** Go `strings.Split(s, string(sep))`: the maximal separator-free pieces of
      `s`, in order; `n` separators give `n + 1` pieces, so the empty string
      gives one empty piece. */
  function Split(s: string, sep: char): (parts: seq<string>)
    ensures |parts| >= 1
    ensures forall i :: 0 <= i < |parts| ==> sep !in parts[i]
    ensures Join(parts, sep) == s
    decreases |s|
  {
    if sep !in s then [s]
    else
      var i := IndexOf(s, sep);
      var rest := Split(s[i + 1..], sep);
      assert s == s[..i] + [sep] + s[i + 1..];
      [s[..i]] + rest
  }

  /** The other half of the round trip: separator-free parts are recovered
      from their join. */
  lemma {:induction false} SplitJoin(parts: seq<string>, sep: char)
    requires |parts| >= 1
    requires forall i :: 0 <= i < |parts| ==> sep !in parts[i]
    ensures Split(Join(parts, sep), sep) == parts
    decreases |parts|
  {
    if |parts| == 1 {
    } else {
      var s := Join(parts, sep);
      var tail := Join(parts[1..], sep);
      assert s == parts[0] + [sep] + tail;
      assert s[|parts[0]|] == sep;
      assert s[..|parts[0]|] == parts[0];
      assert IndexOf(s, sep) == |parts[0]|;
      assert s[|parts[0]| + 1..] == tail;
      SplitJoin(parts[1..], sep);
    }
  }

  // ---------------------------------------------------------------------
  // Decimal digits
  // ---------------------------------------------------------------------

  predicate IsDigit(c: char) {
    '0' <= c <= '9'
  }

  predicate AllDigits(s: string) {
    forall i :: 0 <= i < |s| ==> IsDigit(s[i])
  }

  function DigitValue(c: char): nat
    requires IsDigit(c)
  {
    (c as int) - ('0' as int)
  }

  function DigitChar(d: nat): (c: char)
    requires d < 10
    ensures IsDigit(c) && DigitValue(c) == d
  {
    (('0' as int) + d) as char
  }

  /** The number a string of decimal digits denotes (leading zeros allowed). */
  function DigitsValue(s: string): nat
    requires AllDigits(s)
  {
    if |s| == 0 then 0 else DigitsValue(s[..|s| - 1]) * 10 + DigitValue(s[|s| - 1])
  }

  /** Appending a digit never makes the value smaller. */
  lemma {:induction false} DigitsValuePrefix(s: string, k: nat)
    requires AllDigits(s) && k <= |s|
    ensures DigitsValue(s[..k]) <= DigitsValue(s)
    decreases |s|
  {
    if k < |s| {
      assert s[..|s| - 1][..k] == s[..k];
      DigitsValuePrefix(s[..|s| - 1], k);
    } else {
      assert s[..k] == s;
    }
  }

  /** `snprintf("%lu", n)`: the shortest decimal rendering of `n`. */
  function Decimal(n: nat): (s: string)
    ensures |s| >= 1 && AllDigits(s)
    ensures DigitsValue(s) == n
    ensures |s| > 1 ==> s[0] != '0'
  {
    if n < 10 then [DigitChar(n)]
    else
      var s := Decimal(n / 10) + [DigitChar(n % 10)];
      assert s[..|s| - 1] == Decimal(n / 10);
      s
  }

  /** Distinct numbers have distinct renderings. */
  lemma DecimalInjective(m: nat, n: nat)
    requires Decimal(m) == Decimal(n)
    ensures m == n
  {
  }

  // ---------------------------------------------------------------------
  // Go strconv.ParseUint(s, 10, 32)
  // ---------------------------------------------------------------------

  /** What `strconv.ParseUint(s, 10, 32)` accepts: a non-empty string of
      ASCII digits (no sign, no spaces, no underscores) whose value fits in
      32 bits. Every other input is a syntax or range error. */
  function ParseUint32(s: string): Option<uint32>
  {
    if |s| > 0 && AllDigits(s) && DigitsValue(s) <= MaxUint32 then Some(DigitsValue(s)) else None
  }

  /** The digit loop of `strconv.ParseUint`, which stops with a range error
      as soon as the accumulated value leaves 32 bits. */
  method ParseUint32Loop(s: string) returns (r: Option<uint32>)
    ensures r.Some? <==> |s| > 0 && AllDigits(s) && DigitsValue(s) <= MaxUint32
    ensures r.Some? ==> AllDigits(s) && r.value == DigitsValue(s)
  {
    if |s| == 0 {
      return None;
    }
    var n: nat := 0;
    var i := 0;
    while i < |s|
      invariant 0 <= i <= |s|
      invariant AllDigits(s[..i])
      invariant n == DigitsValue(s[..i]) && n <= MaxUint32
    {
      var c := s[i];
      if !IsDigit(c) {
        return None;
      }
      assert s[..i + 1][..i] == s[..i];
      n := n * 10 + DigitValue(c);
      if n > MaxUint32 {
        assert AllDigits(s[..i + 1]);
        if AllDigits(s) {
          DigitsValuePrefix(s, i + 1);
        }
        return None;
      }
      i := i + 1;
    }
    assert s[..i] == s;
    r := Some(n);
  }

  /** Every 32-bit value survives being rendered and parsed back. */
  lemma ParseDecimal(n: nat)
    requires n <= MaxUint32
    ensures ParseUint32(Decimal(n)) == Some(n)
  {
  }

  // ---------------------------------------------------------------------
  // Go len(s): UTF-8 byte length
  // ---------------------------------------------------------------------

  /** Bytes UTF-8 uses for one Unicode scalar value. */
  function Utf8Width(c: char): nat
  {
    if c as int < 0x80 then 1
    else if c as int < 0x800 then 2
    else if c as int < 0x1_0000 then 3
    else 4
  }

  /** Go's `len` of a string: its length in UTF-8 bytes. */
  function Utf8Length(s: string): (n: nat)
    ensures |s| <= n <= 4 * |s|
    ensures (forall i :: 0 <= i < |s| ==> s[i] as int < 0x80) ==> n == |s|
  {
    if |s| == 0 then 0 else Utf8Width(s[0]) + Utf8Length(s[1..])
  }

  /** The byte length of a string is the sum of its characters' widths:
      one character takes its own width, and lengths add up over
      concatenation. */
  lemma {:induction false} Utf8LengthAppend(a: string, b: string)
    ensures |a| == 1 ==> Utf8Length(a) == Utf8Width(a[0])
    ensures Utf8Length(a + b) == Utf8Length(a) + Utf8Length(b)
    decreases |a|
  {
    if |a| > 0 {
      assert (a + b)[0] == a[0];
      assert (a + b)[1..] == a[1..] + b;
      Utf8LengthAppend(a[1..], b);
    } else {
      assert a + b == b;
    }
  }

  /** The widths UTF-8 gives: one byte below U+0080, two below U+0800,
      three below U+10000 and four above. */
  lemma Utf8Widths()
    ensures Utf8Length("A") == 1 && Utf8Length("\U{E9}") == 2
    ensures Utf8Length("\U{3042}") == 3 && Utf8Length("\U{1F511}") == 4
  {
  }
}

=== FILE: uuid_store.dfy ===
/** The BLE UUID list manager (src/ble/ble_uuid_manager.cpp). It keeps the
    service UUIDs the lock advertises, fetches them from the backend and
    caches them in a flash file, one per line.

    The HTTP request and the flash file system are not modelled as I/O: an
    HTTP exchange is given as its outcome (status code and what the JSON
    parser made of the body) and the file system as the current content of
    the UUID file plus whether it can be opened for writing and reading. */
module UuidStore {
  import opened Common
  import opened Text

  /** The flash file `/ble_uuids.txt`. */
  datatype Flash = Flash(
    file: Option<string>,  // None: the file does not exist
    canWrite: bool,        // LittleFS.open(path, "w") succeeds
    canRead: bool)         // LittleFS.open(path, "r") succeeds

  // ---------------------------------------------------------------------
  // The file format
  // ---------------------------------------------------------------------

  /** Arduino `Print::println` ends every line with CR LF. */
  const LineEnd: string := "\r\n"

  /** The file `saveUuidsToFile` writes: each UUID followed by a line end,
      in list order. */
  function Serialize(uuids: seq<string>): string
  {
    if |uuids| == 0 then "" else uuids[0] + LineEnd + Serialize(uuids[1..])
  }

  /** The lines `while (file.available()) readStringUntil('\n')` returns:
      each read takes the characters up to the next `'\n'` and consumes it;
      the last read takes the rest of the file. */
  function ReadLines(content: string): (lines: seq<string>)
    ensures forall i :: 0 <= i < |lines| ==> '\n' !in lines[i]
    ensures |content| == 0 <==> |lines| == 0
    decreases |content|
  {
    if |content| == 0 then []
    else if '\n' !in content then [content]
    else
      var i := IndexOf(content, '\n');
      [content[..i]] + ReadLines(content[i + 1..])
  }

  /** Nothing is lost by reading line by line: the lines, joined by
      newlines, are the file, where a final newline ends the last line
      rather than starting an empty one. */
  lemma {:induction false} ReadLinesJoin(content: string)
    requires |content| > 0
    ensures Join(ReadLines(content), '\n') + (if content[|content| - 1] == '\n' then "\n" else "") == content
    decreases |content|
  {
    if '\n' in content {
      var i := IndexOf(content, '\n');
      var rest := content[i + 1..];
      assert content == content[..i] + "\n" + rest;
      if |rest| == 0 {
        assert ReadLines(content) == [content[..i]];
      } else {
        ReadLinesJoin(rest);
        var tail := ReadLines(rest);
        assert ReadLines(content) == [content[..i]] + tail;
        assert Join(ReadLines(content), '\n') == content[..i] + "\n" + Join(tail, '\n');
        assert content[|content| - 1] == rest[|rest| - 1];
      }
    }
  }

  /** The non-empty trimmed lines, in order. */
  function KeepTrimmed(lines: seq<string>): (uuids: seq<string>)
    ensures |uuids| <= |lines|
    ensures forall i :: 0 <= i < |uuids| ==> |uuids[i]| > 0 && Trimmed(uuids[i])
  {
    if |lines| == 0 then []
    else
      var t := Trim(lines[0]);
      var rest := KeepTrimmed(lines[1..]);
      if t == "" then rest else [t] + rest
  }

  /** What `loadUuids` keeps: a string is in the list exactly when it is
      the trimmed form of some line that is not blank. */
  lemma {:induction false} KeepTrimmedContent(lines: seq<string>, u: string)
    ensures u in KeepTrimmed(lines) <==> u != "" && exists l :: l in lines && Trim(l) == u
    decreases |lines|
  {
    if |lines| > 0 {
      KeepTrimmedContent(lines[1..], u);
      assert forall l :: l in lines <==> l == lines[0] || l in lines[1..] by {
        assert lines == [lines[0]] + lines[1..];
      }
    }
  }

  /** The UUID list `loadUuids` builds from a file's content. */
  function ParseUuids(content: string): seq<string>
  {
    KeepTrimmed(ReadLines(content))
  }

  /** What a UUID must look like to survive a save/load cycle unchanged. */
  predicate Storable(u: string) {
    |u| > 0 && '\n' !in u && Trimmed(u)
  }

  /** Each UUID with the carriage return `println` left after it. */
  function WithCr(uuids: seq<string>): (lines: seq<string>)
    ensures |lines| == |uuids|
  {
    if |uuids| == 0 then [] else [uuids[0] + "\r"] + WithCr(uuids[1..])
  }

  /** A line written by `println` is read back as the UUID plus the CR. */
  lemma {:induction false} ReadLinesSerialize(uuids: seq<string>)
    requires forall i :: 0 <= i < |uuids| ==> '\n' !in uuids[i]
    ensures ReadLines(Serialize(uuids)) == WithCr(uuids)
    decreases |uuids|
  {
    if |uuids| > 0 {
      var u := uuids[0];
      var rest := Serialize(uuids[1..]);
      var c := Serialize(uuids);
      assert c == (u + "\r") + "\n" + rest;
      assert c[|u| + 1] == '\n';
      assert c[..|u| + 1] == u + "\r";
      assert '\n' !in c[..|u| + 1];
      assert IndexOf(c, '\n') == |u| + 1;
      assert c[|u| + 2..] == rest;
      ReadLinesSerialize(uuids[1..]);
    }
  }

  lemma {:induction false} KeepTrimmedWithCr(uuids: seq<string>)
    requires forall i :: 0 <= i < |uuids| ==> Storable(uuids[i])
    ensures KeepTrimmed(WithCr(uuids)) == uuids
    decreases |uuids|
  {
    if |uuids| > 0 {
      var lines := WithCr(uuids);
      TrimDropsSpaceSuffix(uuids[0], '\r');
      assert lines[0] == uuids[0] + ['\r'];
      assert lines[1..] == WithCr(uuids[1..]);
      KeepTrimmedWithCr(uuids[1..]);
      assert uuids == [uuids[0]] + uuids[1..];
    }
  }

  /** Round trip: loading what was saved gives back the same list, in order,
      when every UUID is non-empty, has no surrounding whitespace and no
      newline. */
  lemma {:induction false} SaveLoadRoundTrip(uuids: seq<string>)
    requires forall i :: 0 <= i < |uuids| ==> Storable(uuids[i])
    ensures ParseUuids(Serialize(uuids)) == uuids
  {
    ReadLinesSerialize(uuids);
    KeepTrimmedWithCr(uuids);
  }

  // ---------------------------------------------------------------------
  // The manager's operations
  // ---------------------------------------------------------------------

  datatype Saved = Saved(ok: bool, flash: Flash)

  /** `saveUuidsToFile`: fails, writing nothing, when the file cannot be
      opened for writing; otherwise replaces the file with the list. */
  function SaveUuidsToFile(uuids: seq<string>, flash: Flash): (r: Saved)
    ensures r.ok <==> flash.canWrite
    ensures r.ok ==> r.flash == flash.(file := Some(Serialize(uuids)))
    ensures !r.ok ==> r.flash == flash
  {
    if !flash.canWrite then Saved(false, flash)
    else Saved(true, flash.(file := Some(Serialize(uuids))))
  }

  datatype Loaded = Loaded(ok: bool, uuids: seq<string>)

  /** `loadUuids`: a missing or unreadable file leaves the list alone and
      reports failure; otherwise the list is replaced by the file's trimmed
      non-empty lines and success means at least one was found. */
  function LoadUuids(uuids: seq<string>, flash: Flash): (r: Loaded)
    ensures flash.file.None? || !flash.canRead ==> r == Loaded(false, uuids)
    ensures flash.file.Some? && flash.canRead ==> r.uuids == ParseUuids(flash.file.value)
    ensures r.ok <==> flash.file.Some? && flash.canRead && |r.uuids| > 0
  {
    if flash.file.None? then Loaded(false, uuids)
    else if !flash.canRead then Loaded(false, uuids)
    else
      var loaded := ParseUuids(flash.file.value);
      Loaded(|loaded| > 0, loaded)
  }

  /** What ArduinoJson made of the response body. */
  datatype JsonBody =
    | Unparsable
    | Document(bleUuids: Option<seq<string>>)  // None: "ble_uuids" missing or not an array

  /** An HTTP GET as seen by the firmware: `GET()`'s return code (negative
      for transport failures) and the parsed body. */
  datatype UuidResponse = UuidResponse(code: int, body: JsonBody)

  datatype Fetched = Fetched(ok: bool, uuids: seq<string>, flash: Flash)

  /** `fetchAndSaveUuids`. */
  function FetchAndSaveUuids(uuids: seq<string>, flash: Flash, response: UuidResponse): (r: Fetched)
    // a failed request or an unparsable body changes nothing
    ensures response.code != 200 || response.body.Unparsable? ==> r == Fetched(false, uuids, flash)
    // a parsed document clears the list first
    ensures response.code == 200 && response.body.Document? ==>
      match response.body.bleUuids
      case None => r == Fetched(false, [], flash)
      case Some(list) =>
        if |list| == 0 then r == Fetched(false, [], flash)
        else r.uuids == list && r == Fetched(flash.canWrite, list, SaveUuidsToFile(list, flash).flash)
    ensures r.ok ==> |r.uuids| > 0 && r.flash.file == Some(Serialize(r.uuids))
  {
    if response.code != 200 then Fetched(false, uuids, flash)
    else match response.body
      case Unparsable => Fetched(false, uuids, flash)
      case Document(found) =>
        if found.None? || |found.value| == 0 then Fetched(false, [], flash)
        else
          var saved := SaveUuidsToFile(found.value, flash);
          Fetched(saved.ok, found.value, saved.flash)
  }

  /** `getUuids`: the held list, copied element for element and in order. */
  function GetUuids(uuids: seq<string>): (r: seq<string>)
    ensures |r| == |uuids| && forall i :: 0 <= i < |r| ==> r[i] == uuids[i]
  {
    uuids
  }

  /** What the accessor hands out after each way of filling the list: the
      list the backend sent after a fetch that parsed one (empty or not),
      and the file's UUIDs after a load that could read the file. */
  lemma GetUuidsAfterFill(uuids: seq<string>, flash: Flash, response: UuidResponse)
    ensures response.code == 200 && response.body.Document? && response.body.bleUuids.Some? ==>
      GetUuids(FetchAndSaveUuids(uuids, flash, response).uuids) == response.body.bleUuids.value
    ensures flash.file.Some? && flash.canRead ==>
      GetUuids(LoadUuids(uuids, flash).uuids) == ParseUuids(flash.file.value)
  {
  }

  /** A successful fetch of storable UUIDs leaves a cache file from which a
      later `loadUuids` recovers exactly the fetched list. */
  lemma FetchThenLoad(uuids: seq<string>, flash: Flash, response: UuidResponse)
    requires FetchAndSaveUuids(uuids, flash, response).ok
    requires response.body.Document? && response.body.bleUuids.Some?
    requires forall i :: 0 <= i < |response.body.bleUuids.value| ==> Storable(response.body.bleUuids.value[i])
    ensures var f := FetchAndSaveUuids(uuids, flash, response);
      f.flash.canRead ==> LoadUuids([], f.flash) == Loaded(true, f.uuids)
  {
    SaveLoadRoundTrip(response.body.bleUuids.value);
  }
}
